=== FILE: README.md ===
# NURBS2Mesh runtime core in Dafny

NURBS2Mesh is a Blender add-on that keeps a mesh copy ("linked mesh") in sync
with a NURBS, curve or surface source object. This project models the
bookkeeping around regeneration in its two iterations, core.py (current) and
__init__.py (older). It models them as pure state transitions over
immutable maps and sequences and proves their contracts.

The model has these parts:

- **Scene** (`scene.dfy`). The object list `bpy.data.objects` is a sequence
  of identities plus a map to objects. Each object has a type, name, mode,
  data reference and optional `n2m` link record. The mesh store maps mesh
  identities to name, user count and material list, and hands out fresh
  identities. A link record that is absent is the same as a default one
  whose source is unset: neither iteration ever matches it.
- **Link registry** (`registry.dfy`). `linked_meshes_for_source` is an
  order-preserving filter that matches on source identity, with a fallback
  match on source name.
- **Change and mode detectors** (`detector.dfy`). These cover the fingerprint
  cache (`_fingerprints`), the last-mode map (`_last_modes`) and
  `forget_fingerprint`. The fingerprint is an opaque deterministic function.
  It is absent exactly when the object's data is not a curve data-block.
- **Timer facility** (`timers.dfy`). Blender's one-shot timers are a map from
  task identity to (captured source name, delay). Each registration gets a
  new identity.
- **Debounce scheduler** (`scheduler.dfy`). This is `schedule_update`: cancel
  and re-arm with the smallest clamped debounce. The `_run` closure is
  `Fire`, an explicit event that pops the task's entry whatever the update
  pass did. It also covers `clear_runtime_state` and `load_post_handler`.
- **Update pass and swap** (`update.dfy`, `swap.dfy`). This is
  `update_now_by_name` with per-target skipping and per-target build
  failure. `_replace_object_mesh` and `_safe_replace_mesh` act on the mesh
  store.
- **Event router** (`router.dfy`). This is `depsgraph_update_handler`.
- **Older iteration** (`legacy.dfy`). It has an identity-only registry, a
  throttling scheduler, no fingerprint or mode gating, and the plain swap.
- **Policies** (`policies.dfy`). These lemmas compare the two iterations
  directly. Under a burst of triggers the debounce keeps only the task
  armed by the last trigger, and the throttle keeps the task armed by the
  first. The older registry's enabled targets are a subsequence of the current
  registry's enabled targets.

The central invariant is `Timers.Coherent`. It says the pending-task map and
the timer facility agree: every tracked task is registered under its own
name, and every registered task is the one tracked for its name. It implies
`Timers.SingleFlight`, which means at most one registered callback per
source name. Every transition of both iterations is proved to preserve it.

## Model

| member | source | states |
|---|---|---|
| Common.MinClamped | core.py:280 | The delay is non-negative, at most every target's clamped debounce, and equal to one of them. |
| Scene.Select | core.py:67-81 | The loop that collects objects passing a test returns an order-preserving subsequence of the object list. It holds only passing objects and holds every passing object. |
| Scene.Lookup | core.py:300 | `bpy.data.objects.get(name)` finds nothing iff no object has that name. Otherwise it returns the first object with that name. |
| Registry.LinkedMeshes | core.py:58-81 | A missing source gives no targets. Otherwise the result is a subsequence of the object list, and every result is a mesh object with a link, enabled unless disabled links are wanted. An object is included iff its link points at the source by identity, or by a non-empty equal name. |
| Registry.IncludeDisabledOnlyAdds | core.py:74-75 | Asking for disabled links only adds objects: the enabled result is an order-preserving subsequence of the full one. |
| Detector.Fingerprint | core.py:186-189 | The fingerprint is absent exactly when the object's data is not a curve data-block. |
| Detector.GeometryChanged | core.py:256-267 | The check reports a change iff the object is named and its fingerprint is unknown, or differs from or is missing in the cache. Only a named curve object's cache entry is overwritten, with its new fingerprint. Every other case leaves the state as it was. |
| Detector.SecondCheckSeesNoChange | core.py:263-267 | An immediate second check of an unchanged named curve object reports no change and leaves the cache as the first check left it. |
| Detector.UnknownFingerprintAlwaysChanged | core.py:260-262 | Without a curve data-block the check fails open. It reports a change on every call and caches nothing. |
| Detector.RecordModeTransition | core.py:92-102 | Recording a mode reports an exit iff the object is a named curve or surface, its stored mode was EDIT and its current mode is not. Only such an object's mode entry is overwritten. |
| Detector.ModeExitFiresOnce | core.py:100-102 | Recording the same current mode twice never reports two exits. |
| Detector.Forget | core.py:50-53 | Only the given name's fingerprint and mode entries are dropped. Pending tasks and every other entry are left unchanged. |
| Detector.ForgetForcesRecheck | core.py:50-53 | After forgetting a name, the next geometry check for that name reports a change, and no mode exit can fire. |
| Timers.Register | core.py:294 | Registering adds exactly one new task identity, with its captured name and delay. Other tasks are unchanged. |
| Timers.UnregisterAll | core.py:282-284 | The given tasks are no longer registered. Every other registered task stays as it was. Unregistering a task that is not registered changes nothing. |
| Timers.CoherentIsSingleFlight | core.py:281-294 | Coherent bookkeeping implies at most one registered callback per source name. |
| Timers.PendingIsOwner | core.py:293 | Under coherent bookkeeping, the only callback registered for a name is the one tracked for it. |
| Timers.UnregisterTrackedEmpties | core.py:42-45 | When every registered callback is tracked, unregistering the tracked ones leaves nothing registered. |
| Swap.ReplaceObjectMesh | core.py:122-136 | The new mesh gains a user. With a previous mesh, the new mesh takes its material list in order. The previous mesh is removed iff its user count reaches zero after detaching. When it is removed, the new mesh takes its non-empty name. Every other mesh is unchanged. |
| Swap.SafeReplaceMesh | __init__.py:52-57 | The same user bookkeeping and release rule as the current swap. The new mesh's materials and name are untouched. Every other mesh is unchanged. |
| Swap.SwapsAgreeOnRelease | core.py:132-134 | Both swaps release exactly the same data-blocks and leave the same user counts. They differ only in the new mesh's name and materials. |
| Update.ProcessTarget | core.py:309-324 | A target without a source, or whose build fails, leaves the world unchanged. Otherwise the target's data becomes a new mesh created in the store, and only its previous mesh may change. That previous mesh is removed iff its last user left, and otherwise loses exactly one user. The new mesh is the built mesh with one more user. With the current swap it takes the previous mesh's material list, and that mesh's non-empty name when the mesh is removed. With the older swap it keeps its own materials and name. Store well-formedness is kept. |
| Update.ProcessTargets | core.py:309-324 | Over a whole pass, only targets change, and only in their data. Skipped and failed targets keep their mesh. Each built target ends with a new mesh of its own that no other target shares. No mesh outside the swapped targets' previous meshes is touched, and no released mesh comes back. Every mesh the pass creates is the data of a target it rebuilt, and a pass that rebuilds nothing leaves the world unchanged. A rebuilt target's previous mesh that no other rebuilt target holds is removed iff its last user left, and otherwise loses exactly one user. With the current swap, that target's new mesh ends the pass with the previous mesh's material list. Every rebuilt target whose previous mesh no other rebuilt target holds ends the pass holding exactly the record its own swap made: the built mesh with one more user, with the material list and the name the swap gives it. |
| Update.UpdateNowByName | core.py:298-324 | A missing source forgets the name and leaves the scene unchanged. A source without linked meshes changes nothing at all. Otherwise the runtime state is unchanged and the pass over the source's linked meshes takes effect, with the user count, material copy, rename and release rule of the current swap. |
| Update.UpdateKeepsReleasedName | core.py:122-136 | Over a whole pass by name, a rebuilt target that alone held its previous mesh ends with a new mesh whose user count is the built mesh's plus one and whose material list is the old mesh's. It takes the old mesh's name iff the old mesh lost its last user and its name is non-empty. |
| Update.UpdateTouchesExactlyLinkedTargets | core.py:305-324 | An object changes iff it is a linked mesh of the named source that has a source and builds. Each such object ends with a new mesh in the store. |
| Update.UpdateIgnoresCache | core.py:298-324 | The pass does not depend on the fingerprint cache or the recorded modes, so an unchanged source is rebuilt all the same. |
| Scheduler.TargetDelay | core.py:280 | The delay is non-negative, at most every target's clamped debounce, and attained by one target. |
| Scheduler.Rearm | core.py:281-294 | The task tracked for the name is popped and unregistered, a new task is registered with the delay, and the name now tracks it. No other name's entry and no other task changes. |
| Scheduler.ScheduleUpdate | core.py:270-295 | A missing source or one with no enabled targets returns no delay and changes nothing. Otherwise the returned delay is the smallest clamped debounce and the reset step runs. The caches are never touched. |
| Scheduler.ScheduleKeepsCoherent | core.py:281-294 | Scheduling preserves the coherence of the pending-task map and the timer facility. |
| Scheduler.Fire | core.py:286-291 | The fired task leaves the facility and its name's entry is removed, even when the pass raised. Other entries and tasks are unchanged. Without an exception, the effect is that of the update pass. |
| Scheduler.FireKeepsCoherent | core.py:286-291 | Firing preserves coherence: the entry popped is exactly the task that fired. |
| Scheduler.ClearRuntimeState | core.py:40-47 | All three maps become empty, and every tracked task is unregistered. Under coherent bookkeeping nothing stays registered. |
| Scheduler.LoadPost | core.py:354-356 | After a document load no map holds anything, and under coherent bookkeeping no task is registered. |
| Router.Recheck | core.py:335-342 | For a curve or surface object, the mode is always recorded. The fingerprint cache is consulted only for geometry updates. A task is armed iff geometry changed or edit mode was exited, and the source has enabled targets. The armed task is registered under the source's name with the smallest clamped debounce of its targets. Arming touches only this source: every other name keeps its pending entry, and every other registered task stays. Non-source objects change nothing. |
| Router.UsersOf | core.py:344-348 | Returns exactly the curve and surface objects whose data is the given curve data-block, in object-list order and as a subsequence of that list. |
| Router.RecheckAll | core.py:343-351 | Every named user of the curve data-block gets its mode recorded. Every named one with curve data gets its fingerprint cached. |
| Router.RouteUpdate | core.py:333-351 | One update entry never touches the scene and never reuses a task identity. |
| Router.RouteAll | core.py:333-351 | A batch of entries never touches the scene and never reuses a task identity. |
| Router.DepsgraphUpdateHandler | core.py:329-351 | Without an OBJECT or CURVE update the handler does nothing. It never touches the scene. |
| Router.RecheckKeepsCoherent | core.py:335-342 | A recheck preserves coherence. |
| Router.RecheckAllKeepsCoherent | core.py:343-351 | Rechecking every user of a curve data-block preserves coherence. |
| Router.RouteAllKeepsCoherent | core.py:333-351 | Routing a batch preserves coherence. |
| Router.HandlerKeepsCoherent | core.py:329-351 | However many notifications arrive, the handler preserves coherence and leaves at most one registered task per source. |
| Router.ForgetThenNotifySchedules | core.py:50-53 | After forgetting a source, the next geometry notification for it arms a task whenever it has enabled targets, even if its content is unchanged. |
| Legacy.TargetsForSource | __init__.py:36-44 | A missing source gives no targets. Otherwise the result holds exactly the mesh objects whose link source is the source itself, in list order. There is no name fallback and no `auto_update` filter. |
| Legacy.AutoUpdateTargets | __init__.py:78 | These are the targets with `auto_update` set, in list order, and exactly those. |
| Legacy.ScheduleUpdate | __init__.py:72-94 | No source, or no enabled targets, is a no-op. So is a name that already has a pending task. Otherwise exactly one entry is added for the name, and one task is registered with the smallest clamped debounce. |
| Legacy.UpdateNowBySourceName | __init__.py:96-114 | A missing source, or one without enabled identity-matched targets, changes nothing. Otherwise the pass over those targets takes effect, with the same per-target skipping, failure isolation and release rule. Each new mesh keeps the built mesh's materials and name. |
| Legacy.Fire | __init__.py:87-92 | The fired task leaves the facility and its name's entry is removed, even when the pass raised. Without an exception, the effect is that of the older update pass. |
| Legacy.RouteUpdate | __init__.py:306-318 | A curve or surface object is scheduled iff its geometry was updated, with no fingerprint or mode gating. A task is armed iff it has enabled targets and none is pending. For an updated curve data-block, every curve or surface object using it that has enabled targets ends with a pending entry, and no entry is dropped. |
| Legacy.ScheduleAll | __init__.py:315-318 | Scheduling each object in turn never touches the scene and drops no pending entry. Every object that has enabled targets ends with a pending entry. |
| Legacy.RouteAll | __init__.py:306-318 | A batch of entries never touches the scene. |
| Legacy.DepsgraphUpdateHandler | __init__.py:300-318 | Without an OBJECT or CURVE update the handler does nothing. It never touches the scene. |
| Legacy.ClearTimers | __init__.py:323-326 | Every tracked task is unregistered and the pending-task map is emptied. Untracked tasks stay. Under coherent bookkeeping nothing stays registered. |
| Legacy.OnLoadPost | __init__.py:320-326 | After a document load no entry is pending, and under coherent bookkeeping no task is registered. |
| Legacy.Unregister | __init__.py:357-361 | After deactivation no entry is pending, no tracked task is registered, and under coherent bookkeeping nothing is registered. |
| Legacy.ScheduleKeepsCoherent | __init__.py:83-94 | Throttled scheduling preserves coherence. |
| Legacy.FireKeepsCoherent | __init__.py:87-92 | Firing preserves coherence. |
| Legacy.ScheduleAllKeepsCoherent | __init__.py:315-318 | Scheduling every user of a curve data-block preserves coherence. |
| Legacy.RouteAllKeepsCoherent | __init__.py:306-318 | Routing a batch preserves coherence. |
| Legacy.HandlerKeepsCoherent | __init__.py:300-318 | The older handler preserves coherence and leaves at most one registered task per source. |
| Policies.LegacyTargetsAreLinkedMeshes | __init__.py:36-44 | Every enabled target of the older registry is an enabled target of the current one, in the same relative order. |
| Policies.ThrottleKeepsDebounceReplaces | __init__.py:83-85 | While a task is pending, the older scheduler changes nothing and the pending task stays registered. The current one unregisters it and tracks a new one instead. |
| Policies.RearmStep | core.py:281-294 | One trigger for a source with enabled targets tracks the next task identity under the source's name and preserves coherence. |
| Policies.DebounceBurst | core.py:270-295 | A burst of triggers leaves the caches untouched. |
| Policies.DebounceBurstArms | core.py:281-294 | Each trigger of a burst arms exactly one new task identity. |
| Policies.DebounceBurstCoherent | core.py:281-294 | A burst preserves coherence. |
| Policies.DebounceKeepsLatest | core.py:281-294 | After a burst of k triggers, exactly one task is pending for the source, the one armed by the last trigger. |
| Policies.ThrottleBurst | __init__.py:72-94 | A burst of triggers under the older scheduler leaves the scene untouched. |
| Policies.ThrottleBurstCoherent | __init__.py:83-94 | A throttled burst preserves coherence. |
| Policies.ThrottleKeepsFirst | __init__.py:83-94 | After a burst of k triggers starting with nothing pending, exactly one task was ever armed, the one armed by the first trigger. |

## Left out

- The byte-level fingerprint encoding is not modelled: blake2b hashing, IEEE-754 packing, string formatting and modifier reflection (core.py:141-253). The fingerprint is an opaque deterministic function of the object.
- Blender's evaluation and resource calls are not modelled (`evaluated_depsgraph_get`, `new_from_object`, `view_layer.update`). A build is an outcome supplied per target, either a new mesh or a failure. `meshes.remove` is removal from the store map.
- Wall-clock time and the real timer facility are not modelled. Firing is an event the caller chooses, so "the rebuild waits for a quiet period" is stated as "only the last trigger's task is pending".
- UI, operators, preferences, property declarations, class registration and handler-list bookkeeping are not modelled. Neither are `first_user_collection` and `_first_users_collection`, which only pick a collection for a new object.
- An exception escaping the update pass is the `escaped` flag of `Scheduler.Fire` and `Legacy.Fire`. It is assumed to escape before the pass changed anything. A build failure inside the pass is the per-target failed outcome.
- User counts below zero are not modelled: detaching a mesh with no users leaves its count at zero. An object whose mesh reference is not in the store is treated as having no previous mesh.
- Scene.Lookup: takes the first object with the name. Blender keeps object names unique, so this choice never matters there.
- Update entries are taken to be the scene's own data-blocks. An `ObjectId` names the object itself, and a `CurveDataId` names the curve data-block that objects hold. Blender reports evaluated copies and reaches the originals through `.original`. The identity tests at core.py:347, __init__.py:42 and __init__.py:317 therefore succeed in the model by construction. Only the name fallback at core.py:79 does not rest on this.
- The `obj is None` case of `_record_mode_transition` is not modelled: every update entry names an object that exists.
- Update.ProcessTargets: over a whole pass, the release rule, the material copy and the rename are stated only for a previous mesh that no other rebuilt target holds. The store's user counts are not tied to the number of objects that refer to a mesh, so a mesh held by two rebuilt targets but counting one user is released by the first swap already. Each single swap states the rule in `Update.ProcessTarget`.
- Router.RecheckAll: states only which cache and mode entries exist afterwards, not their values or which tasks were armed. The per-object effect is stated on `Router.Recheck`.
- Router.RouteUpdate: states only that the scene is untouched and task identities are not reused. The per-entry effect is stated on `Router.Recheck` and `Router.RecheckAll`.
- Router.RouteAll: states only that the scene is untouched and task identities are not reused. Coherence is stated by `Router.RouteAllKeepsCoherent`.
- Router.DepsgraphUpdateHandler: beyond the early return, states only that the scene is untouched. Coherence is stated by `Router.HandlerKeepsCoherent`.
- Legacy.RouteAll: states only that the scene is untouched. Coherence is stated by `Legacy.RouteAllKeepsCoherent`.
- Legacy.DepsgraphUpdateHandler: beyond the early return, states only that the scene is untouched. Coherence is stated by `Legacy.HandlerKeepsCoherent`.
- Policies.DebounceBurst: its own contract states only that the caches are untouched. The timing facts are in `Policies.DebounceKeepsLatest`.
- Policies.ThrottleBurst: its own contract states only that the scene is untouched. The timing facts are in `Policies.ThrottleKeepsFirst`.
- Four facts about the code, which the model follows as written:
  - The add-on does not normalise the placement of a generated mesh.
  - `forget_fingerprint` does not cancel a pending task (core.py:50-53).
  - The fingerprint is absent when the object's data is not a curve data-block, whatever the object's type (core.py:187-189).
  - `update_now_by_name` rebuilds without consulting the fingerprint cache, as `Update.UpdateIgnoresCache` states.

=== FILE: common.dfy ===
/** Small generic vocabulary shared by every other module: an optional value,
    order-preserving subsequences, duplicate-free sequences, and the clamped
    minimum the schedulers use to pick a delay. */
module Common {

  /** Python's `Optional[T]`: `None` or a present value. */
  datatype Option<+T> = None | Some(value: T)

  /** `max(d, 0.0)`: a negative debounce is treated as no delay at all. */
  function Clamp(d: real): real
  {
    if d < 0.0 then 0.0 else d
  }

  /** `min(max(d, 0.0) for d in ds)`: the smallest clamped value. */
  function MinClamped(ds: seq<real>): (m: real)
    requires |ds| > 0
    ensures m >= 0.0
    ensures forall i :: 0 <= i < |ds| ==> m <= Clamp(ds[i])
    ensures exists i :: 0 <= i < |ds| && m == Clamp(ds[i])
  {
    if |ds| == 1 then Clamp(ds[0])
    else
      var rest := MinClamped(ds[1..]);
      if Clamp(ds[0]) <= rest then Clamp(ds[0])
      else
        var k :| 0 <= k < |ds[1..]| && rest == Clamp(ds[1..][k]);
        assert rest == Clamp(ds[k + 1]);
        rest
  }

  /** `r` is obtained from `s` by deleting elements, keeping the order of the
      rest. Matching the head greedily is complete for this relation. */
  predicate IsSubsequence<T(==)>(r: seq<T>, s: seq<T>)
    decreases |s|
  {
    |r| == 0 ||
    (|s| > 0 &&
     if r[0] == s[0] then IsSubsequence(r[1..], s[1..]) else IsSubsequence(r, s[1..]))
  }

  /** No element occurs twice. */
  predicate Distinct<T(==)>(s: seq<T>)
  {
    forall i, j :: 0 <= i < j < |s| ==> s[i] != s[j]
  }

  /** Every element of a subsequence is an element of the sequence. */
  lemma {:induction false} SubsequenceMembers<T>(r: seq<T>, s: seq<T>)
    requires IsSubsequence(r, s)
    ensures forall x :: x in r ==> x in s
    decreases |s|
  {
    if |r| == 0 {
    } else if r[0] == s[0] {
      SubsequenceMembers(r[1..], s[1..]);
      forall x | x in r
        ensures x in s
      {
        if x != r[0] {
          assert x in r[1..];
        }
      }
    } else {
      SubsequenceMembers(r, s[1..]);
    }
  }

  /** A subsequence of a duplicate-free sequence is duplicate-free. */
  lemma {:induction false} SubsequenceDistinct<T>(r: seq<T>, s: seq<T>)
    requires IsSubsequence(r, s)
    requires Distinct(s)
    ensures Distinct(r)
    decreases |s|
  {
    if |r| == 0 {
    } else if r[0] == s[0] {
      assert Distinct(s[1..]);
      SubsequenceDistinct(r[1..], s[1..]);
      SubsequenceMembers(r[1..], s[1..]);
      assert r[0] !in s[1..];
      forall i, j | 0 <= i < j < |r|
        ensures r[i] != r[j]
      {
        if i == 0 {
          assert r[j] == r[1..][j - 1];
        } else {
          assert r[i] == r[1..][i - 1] && r[j] == r[1..][j - 1];
        }
      }
    } else {
      assert Distinct(s[1..]);
      SubsequenceDistinct(r, s[1..]);
    }
  }
}

=== FILE: detector.dfy ===
/** The runtime state of core.py (`_timers`, `_fingerprints`, `_last_modes`)
    and the two change signals computed from it: a fingerprint that differs
    from the cached one, and the edge of leaving edit mode. */
module Detector {
  import opened Common
  import opened Scene
  import opened Timers

  /** A hex digest of everything about a source that shapes its mesh. */
  type Digest = string

  /** The byte-level fingerprint (`_curve_fingerprint`) is opaque here: any
      deterministic function of the source object. */
  type Hasher = Obj -> Digest

  datatype Runtime = Runtime(
    timers: map<string, TaskId>,
    fingerprints: map<string, Digest>,
    lastModes: map<string, string>)

  /** The state right after activation, and after any clear. */
  const EmptyRuntime := Runtime(map[], map[], map[])

  /** `_curve_fingerprint`: nothing when the object's data is not a curve
      data-block (meaning "unknown, treat as changed"). */
  function Fingerprint(hash: Hasher, o: Obj): (d: Option<Digest>)
    ensures d.None? <==> !o.data.CurveRef?
    ensures d.Some? ==> d.value == hash(o)
  {
    if o.data.CurveRef? then Some(hash(o)) else None
  }

  /** Reference meaning of "geometry changed": a named object whose
      fingerprint is unknown, or differs from (or is missing in) the cache. */
  predicate FingerprintDiffers(rt: Runtime, hash: Hasher, o: Obj)
  {
    o.name != "" &&
    match Fingerprint(hash, o)
    case None => true
    case Some(d) => !(o.name in rt.fingerprints && rt.fingerprints[o.name] == d)
  }

  /** Reference meaning of "edit mode was just exited": the stored mode of a
      named curve or surface object is EDIT and its current mode is not. */
  predicate ModeExited(rt: Runtime, o: Obj)
  {
    IsSourceType(o) && o.name != "" &&
    o.name in rt.lastModes && rt.lastModes[o.name] == EditMode && o.mode != EditMode
  }

  /** The answer of a check and the runtime state it leaves behind. */
  datatype Check = Check(result: bool, rt: Runtime)

  /** `_geometry_changed(src_obj)`. */
  function GeometryChanged(rt: Runtime, hash: Hasher, o: Obj): (c: Check)
    ensures c.result <==> FingerprintDiffers(rt, hash, o)
    ensures c.rt.timers == rt.timers && c.rt.lastModes == rt.lastModes
    ensures !c.result ==> c.rt == rt
    ensures o.name == "" || !o.data.CurveRef? ==> c.rt == rt
    ensures o.name != "" && o.data.CurveRef? ==> c.rt.fingerprints == rt.fingerprints[o.name := hash(o)]
  {
    if o.name == "" then Check(false, rt)
    else
      match Fingerprint(hash, o)
      case None => Check(true, rt)
      case Some(d) =>
        if o.name in rt.fingerprints && rt.fingerprints[o.name] == d then Check(false, rt)
        else Check(true, rt.(fingerprints := rt.fingerprints[o.name := d]))
  }

  /** `_record_mode_transition(obj)`. */
  function RecordModeTransition(rt: Runtime, o: Obj): (c: Check)
    ensures c.result <==> ModeExited(rt, o)
    ensures c.rt.timers == rt.timers && c.rt.fingerprints == rt.fingerprints
    ensures !IsSourceType(o) || o.name == "" ==> c.rt == rt
    ensures IsSourceType(o) && o.name != "" ==> c.rt.lastModes == rt.lastModes[o.name := o.mode]
  {
    if !IsSourceType(o) || o.name == "" then Check(false, rt)
    else
      var previous := if o.name in rt.lastModes then Some(rt.lastModes[o.name]) else None;
      Check(previous == Some(EditMode) && o.mode != EditMode,
            rt.(lastModes := rt.lastModes[o.name := o.mode]))
  }

  /** `forget_fingerprint(src_name)`: drops the cached fingerprint and mode
      of one name; pending timers are left alone. */
  function Forget(rt: Runtime, name: string): (r: Runtime)
    ensures r.timers == rt.timers
    ensures name !in r.fingerprints && name !in r.lastModes
    ensures forall n :: n in rt.fingerprints && n != name ==> n in r.fingerprints && r.fingerprints[n] == rt.fingerprints[n]
    ensures forall n :: n in rt.lastModes && n != name ==> n in r.lastModes && r.lastModes[n] == rt.lastModes[n]
    ensures r.fingerprints.Keys <= rt.fingerprints.Keys && r.lastModes.Keys <= rt.lastModes.Keys
  {
    rt.(fingerprints := rt.fingerprints - {name}, lastModes := rt.lastModes - {name})
  }

  /** An immediate second check of an unchanged named curve object reports
      no change and leaves the cache as the first check left it. */
  lemma SecondCheckSeesNoChange(rt: Runtime, hash: Hasher, o: Obj)
    requires o.name != "" && o.data.CurveRef?
    ensures var first := GeometryChanged(rt, hash, o);
            var second := GeometryChanged(first.rt, hash, o);
            !second.result && second.rt == first.rt
  {
  }

  /** Without a curve data-block the check fails open: it reports a change
      every time and never caches anything. */
  lemma UnknownFingerprintAlwaysChanged(rt: Runtime, hash: Hasher, o: Obj)
    requires o.name != "" && !o.data.CurveRef?
    ensures var first := GeometryChanged(rt, hash, o);
            first.result && first.rt == rt && GeometryChanged(first.rt, hash, o).result
  {
  }

  /** After forgetting a name, the next check of an object with that name
      reports a change whatever its content, and a mode exit cannot fire
      until a mode has been recorded again. */
  lemma ForgetForcesRecheck(rt: Runtime, hash: Hasher, o: Obj)
    requires o.name != ""
    ensures GeometryChanged(Forget(rt, o.name), hash, o).result
    ensures !RecordModeTransition(Forget(rt, o.name), o).result
  {
  }

  /** Leaving edit mode fires on exactly one edge: recording the same
      current mode twice never reports two exits. */
  lemma ModeExitFiresOnce(rt: Runtime, o: Obj)
    ensures !RecordModeTransition(RecordModeTransition(rt, o).rt, o).result
  {
  }
}

=== FILE: legacy.dfy ===
/** The first iteration of the add-on (__init__.py). Same skeleton as the
    core: a registry, a scheduler keyed by source name, an update pass and a
    handler. It differs in four ways. Targets match on source identity only.
    A pending task is left alone by later triggers (a throttle, not a
    debounce). There is no fingerprint or mode gating. The swap copies no
    materials and keeps no names. */
module Legacy {
  import opened Common
  import opened Scene
  import opened Timers
  import opened Update
  import opened Scheduler
  import opened Router

  /** `_TIMERS`, the host's timers and the scene. */
  datatype LegacySys = LegacySys(timers: map<string, TaskId>, fac: TimerFacility, world: World)

  /** The test of `_targets_for_source`: a mesh object with a link record
      whose source is `src` itself. */
  predicate IsTarget(o: Obj, srcId: ObjId)
  {
    o.kind == MeshObject && o.link.Some? && o.link.value.source.Some? && o.link.value.source.value.id == srcId
  }

  /** `_targets_for_source(src)`: no name fallback, no `auto_update` test. */
  function TargetsForSource(w: World, src: Option<ObjId>): (r: seq<ObjId>)
    requires Listed(w.order, w.objs)
    ensures src.None? ==> r == []
    ensures IsSubsequence(r, w.order)
    ensures forall i :: 0 <= i < |r| ==> r[i] in w.objs && IsTarget(w.objs[r[i]], src.value)
    ensures src.Some? ==> forall id :: id in w.order ==> (id in r <==> IsTarget(w.objs[id], src.value))
  {
    match src
    case None => []
    case Some(s) =>
      var r := Select(w.order, w.objs, o => IsTarget(o, s));
      SubsequenceMembers(r, w.order);
      r
  }

  /** `t.n2m.auto_update` on an object that has a link record. */
  predicate AutoUpdating(o: Obj)
  {
    o.link.Some? && o.link.value.autoUpdate
  }

  /** `[t for t in _targets_for_source(src) if t.n2m.auto_update]`. */
  function AutoUpdateTargets(w: World, src: Option<ObjId>): (r: seq<ObjId>)
    requires Listed(w.order, w.objs)
    ensures src.None? ==> r == []
    ensures IsSubsequence(r, w.order)
    ensures forall i :: 0 <= i < |r| ==> r[i] in w.objs && IsTarget(w.objs[r[i]], src.value) && w.objs[r[i]].link.value.autoUpdate
    ensures src.Some? ==> forall id :: id in w.order ==>
              (id in r <==> IsTarget(w.objs[id], src.value) && w.objs[id].link.value.autoUpdate)
  {
    match src
    case None => []
    case Some(s) =>
      var targets := TargetsForSource(w, src);
      SelectTwice(w.order, w.objs, o => IsTarget(o, s), AutoUpdating);
      var r := Select(targets, w.objs, AutoUpdating);
      SubsequenceMembers(r, w.order);
      r
  }

  /** `_schedule_update(src_obj)`. */
  function ScheduleUpdate(s: LegacySys, src: Option<ObjId>): (r: LegacySys)
    requires Listed(s.world.order, s.world.objs)
    requires src.Some? ==> src.value in s.world.objs
    ensures r.world == s.world
    ensures src.None? || AutoUpdateTargets(s.world, src) == [] ==> r == s
    ensures src.Some? && s.world.objs[src.value].name in s.timers ==> r == s
    ensures src.Some? && AutoUpdateTargets(s.world, src) != [] && s.world.objs[src.value].name !in s.timers ==>
              var name := s.world.objs[src.value].name;
              var targets := AutoUpdateTargets(s.world, src);
              && r.timers == s.timers[name := s.fac.next]
              && r.fac.next == s.fac.next + 1
              && exists d: real ::
                   && r.fac == Register(s.fac, name, d)
                   && d >= 0.0
                   && (forall t :: t in targets ==> d <= Clamp(s.world.objs[t].link.value.debounce))
                   && (exists t :: t in targets && d == Clamp(s.world.objs[t].link.value.debounce))
  {
    match src
    case None => s
    case Some(id) =>
      var name := s.world.objs[id].name;
      var targets := AutoUpdateTargets(s.world, src);
      if targets == [] then s
      else
        var delay := TargetDelay(s.world.objs, targets);
        if name in s.timers then s
        else LegacySys(s.timers[name := s.fac.next], Register(s.fac, name, delay), s.world)
  }

  /** `_update_now_by_source_name(src_name)`: a missing source is simply
      skipped (there is no cache to forget). */
  function UpdateNowBySourceName(w: World, name: string, build: Builder): (r: World)
    requires WellFormed(w)
    ensures Lookup(w.order, w.objs, name).None? ==> r == w
    ensures Lookup(w.order, w.objs, name).Some? ==>
              PassEffect(w, r, AutoUpdateTargets(w, Lookup(w.order, w.objs, name)), build, PlainSwap)
    ensures Lookup(w.order, w.objs, name).Some? && AutoUpdateTargets(w, Lookup(w.order, w.objs, name)) == [] ==> r == w
  {
    match Lookup(w.order, w.objs, name)
    case None => w
    case Some(src) =>
      var targets := AutoUpdateTargets(w, Some(src));
      SubsequenceMembers(targets, w.order);
      SubsequenceDistinct(targets, w.order);
      ProcessTargets(w, targets, build, PlainSwap)
  }

  /** The `_run` closure of __init__.py, fired by the host: the update pass,
      then the name's entry popped whether or not the pass raised. */
  function Fire(s: LegacySys, t: TaskId, escaped: bool, build: Builder): (r: LegacySys)
    requires t in s.fac.registered
    requires WellFormed(s.world)
    ensures var name := s.fac.registered[t].name;
            && name !in r.timers
            && (forall n :: n in s.timers && n != name ==> n in r.timers && r.timers[n] == s.timers[n])
            && r.timers.Keys <= s.timers.Keys
    ensures t !in r.fac.registered && r.fac.next == s.fac.next
    ensures forall u :: u in s.fac.registered && u != t ==> u in r.fac.registered && r.fac.registered[u] == s.fac.registered[u]
    ensures r.fac.registered.Keys <= s.fac.registered.Keys
    ensures !escaped ==> r.world == UpdateNowBySourceName(s.world, s.fac.registered[t].name, build)
    ensures escaped ==> r.world == s.world
  {
    var name := s.fac.registered[t].name;
    var world := if escaped then s.world else UpdateNowBySourceName(s.world, name, build);
    LegacySys(s.timers - {name}, UnregisterAll(s.fac, {t}), world)
  }

  /** One update entry of `_n2m_on_depsgraph_update`. */
  function RouteUpdate(s: LegacySys, u: DepsUpdate): (r: LegacySys)
    requires Listed(s.world.order, s.world.objs)
    requires u.id.ObjectId? ==> u.id.obj in s.world.objs
    ensures r.world == s.world
    ensures u.id.ObjectId? ==>
              var o := s.world.objs[u.id.obj];
              var fires := IsSourceType(o) && u.isUpdatedGeometry && AutoUpdateTargets(s.world, Some(u.id.obj)) != []
                           && o.name !in s.timers;
              && r.fac.next == s.fac.next + (if fires then 1 else 0)
              && (fires ==> r.timers == s.timers[o.name := s.fac.next])
              && (!fires ==> r == s)
    ensures u.id.CurveDataId? ==>
              && s.timers.Keys <= r.timers.Keys
              && forall id :: id in s.world.order && IsSourceType(s.world.objs[id]) && s.world.objs[id].data == CurveRef(u.id.curve)
                                && AutoUpdateTargets(s.world, Some(id)) != [] ==>
                   s.world.objs[id].name in r.timers
    ensures u.id.OtherId? ==> r == s
  {
    match u.id
    case ObjectId(id) =>
      if IsSourceType(s.world.objs[id]) && u.isUpdatedGeometry then ScheduleUpdate(s, Some(id)) else s
    case CurveDataId(c) =>
      var users := UsersOf(s.world, c);
      assert forall id :: id in users ==> exists i :: 0 <= i < |users| && users[i] == id;
      ScheduleAll(s, users)
    case OtherId => s
  }

  /** `_schedule_update` on each object of `ids` in turn: every one with
      enabled targets ends with a pending entry, and no entry is dropped. */
  function ScheduleAll(s: LegacySys, ids: seq<ObjId>): (r: LegacySys)
    requires Listed(s.world.order, s.world.objs)
    requires forall i :: 0 <= i < |ids| ==> ids[i] in s.world.objs
    ensures r.world == s.world
    ensures s.timers.Keys <= r.timers.Keys
    ensures forall i :: 0 <= i < |ids| && AutoUpdateTargets(s.world, Some(ids[i])) != [] ==>
              s.world.objs[ids[i]].name in r.timers
    decreases |ids|
  {
    if |ids| == 0 then s
    else
      var s1 := ScheduleUpdate(s, Some(ids[0]));
      assert forall i :: 1 <= i < |ids| ==> ids[i] == ids[1..][i - 1];
      ScheduleAll(s1, ids[1..])
  }

  /** `_n2m_on_depsgraph_update(scene, depsgraph)`. */
  function DepsgraphUpdateHandler(s: LegacySys, dg: Depsgraph): (r: LegacySys)
    requires Listed(s.world.order, s.world.objs)
    requires UpdatesResolve(s.world, dg.updates)
    ensures !(dg.objectTypeUpdated || dg.curveTypeUpdated) ==> r == s
    ensures r.world == s.world
  {
    if !(dg.objectTypeUpdated || dg.curveTypeUpdated) then s
    else RouteAll(s, dg.updates)
  }

  /** The update entries of a batch, in order. */
  function RouteAll(s: LegacySys, updates: seq<DepsUpdate>): (r: LegacySys)
    requires Listed(s.world.order, s.world.objs)
    requires UpdatesResolve(s.world, updates)
    ensures r.world == s.world
    decreases |updates|
  {
    if |updates| == 0 then s
    else
      assert forall i :: 1 <= i < |updates| ==> updates[i] == updates[1..][i - 1];
      RouteAll(RouteUpdate(s, updates[0]), updates[1..])
  }

  /** The timer clean-up shared by `_n2m_on_load_post` and `unregister`:
      unregister every tracked task still registered, then empty `_TIMERS`. */
  function ClearTimers(s: LegacySys): (r: LegacySys)
    ensures r.timers == map[] && r.world == s.world && r.fac.next == s.fac.next
    ensures forall n :: n in s.timers ==> s.timers[n] !in r.fac.registered
    ensures forall t :: t in s.fac.registered && t !in s.timers.Values ==>
              t in r.fac.registered && r.fac.registered[t] == s.fac.registered[t]
    ensures Coherent(s.timers, s.fac) ==> r.fac.registered == map[]
  {
    UnregisterTrackedEmpties(s.timers, s.fac);
    LegacySys(map[], UnregisterAll(s.fac, s.timers.Values), s.world)
  }

  /** `_n2m_on_load_post`: no pending task survives a document load. */
  function OnLoadPost(s: LegacySys): (r: LegacySys)
    ensures r.timers == map[] && r.world == s.world
    ensures Coherent(s.timers, s.fac) ==> r.fac.registered == map[]
  {
    ClearTimers(s)
  }

  /** The timer part of `unregister`: no pending task survives deactivation. */
  function Unregister(s: LegacySys): (r: LegacySys)
    ensures r.timers == map[] && r.world == s.world
    ensures forall n :: n in s.timers ==> s.timers[n] !in r.fac.registered
    ensures Coherent(s.timers, s.fac) ==> r.fac.registered == map[]
  {
    ClearTimers(s)
  }

  /** Throttled scheduling keeps the pending-task map and the facility in
      step: a task is armed only when the name has no entry. */
  lemma ScheduleKeepsCoherent(s: LegacySys, src: Option<ObjId>)
    requires Listed(s.world.order, s.world.objs)
    requires src.Some? ==> src.value in s.world.objs
    requires Coherent(s.timers, s.fac)
    ensures var r := ScheduleUpdate(s, src); Coherent(r.timers, r.fac)
  {
    var r := ScheduleUpdate(s, src);
    if r != s {
      var name := s.world.objs[src.value].name;
      forall t | t in r.fac.registered
        ensures r.fac.registered[t].name in r.timers && r.timers[r.fac.registered[t].name] == t
      {
        if t != s.fac.next {
          assert s.timers[s.fac.registered[t].name] == t;
        }
      }
    }
  }

  /** Firing keeps the pending-task map and the facility in step: the
      entry popped is exactly the task that fired. */
  lemma FireKeepsCoherent(s: LegacySys, t: TaskId, escaped: bool, build: Builder)
    requires t in s.fac.registered
    requires WellFormed(s.world)
    requires Coherent(s.timers, s.fac)
    ensures var r := Fire(s, t, escaped, build); Coherent(r.timers, r.fac)
  {
    var r := Fire(s, t, escaped, build);
    forall n | n in r.timers
      ensures r.timers[n] in r.fac.registered && r.fac.registered[r.timers[n]].name == n
    {
      assert s.timers[n] != t;
    }
  }

  /** Scheduling each object in turn keeps the pending-task map and the
      facility in step. */
  lemma {:induction false} ScheduleAllKeepsCoherent(s: LegacySys, ids: seq<ObjId>)
    requires Listed(s.world.order, s.world.objs)
    requires forall i :: 0 <= i < |ids| ==> ids[i] in s.world.objs
    requires Coherent(s.timers, s.fac)
    ensures var r := ScheduleAll(s, ids); Coherent(r.timers, r.fac)
    decreases |ids|
  {
    if |ids| > 0 {
      ScheduleKeepsCoherent(s, Some(ids[0]));
      ScheduleAllKeepsCoherent(ScheduleUpdate(s, Some(ids[0])), ids[1..]);
    }
  }

  /** Routing each update entry in turn keeps the pending-task map and the
      facility in step. */
  lemma {:induction false} RouteAllKeepsCoherent(s: LegacySys, updates: seq<DepsUpdate>)
    requires Listed(s.world.order, s.world.objs)
    requires UpdatesResolve(s.world, updates)
    requires Coherent(s.timers, s.fac)
    ensures var r := RouteAll(s, updates); Coherent(r.timers, r.fac)
    decreases |updates|
  {
    if |updates| > 0 {
      var u := updates[0];
      match u.id {
        case ObjectId(id) => ScheduleKeepsCoherent(s, Some(id));
        case CurveDataId(c) => ScheduleAllKeepsCoherent(s, UsersOf(s.world, c));
        case OtherId =>
      }
      assert forall i :: 1 <= i < |updates| ==> updates[i] == updates[1..][i - 1];
      RouteAllKeepsCoherent(RouteUpdate(s, u), updates[1..]);
    }
  }

  /** The older handler also leaves at most one registered task per source. */
  lemma HandlerKeepsCoherent(s: LegacySys, dg: Depsgraph)
    requires Listed(s.world.order, s.world.objs)
    requires UpdatesResolve(s.world, dg.updates)
    requires Coherent(s.timers, s.fac)
    ensures var r := DepsgraphUpdateHandler(s, dg); Coherent(r.timers, r.fac) && SingleFlight(r.fac)
  {
    if dg.objectTypeUpdated || dg.curveTypeUpdated {
      RouteAllKeepsCoherent(s, dg.updates);
    }
    var r := DepsgraphUpdateHandler(s, dg);
    CoherentIsSingleFlight(r.timers, r.fac);
  }
}

=== FILE: policies.dfy ===
/** The two iterations side by side. Under a burst of triggers for one
    source, the debounce of core.py keeps exactly the task armed by the
    last trigger, so the rebuild waits for a quiet period after the burst;
    the throttle of __init__.py keeps the task armed by the first trigger,
    so the rebuild happens a fixed delay after the burst began. */
module Policies {
  import opened Common
  import opened Scene
  import opened Timers
  import opened Registry
  import opened Detector
  import opened Scheduler
  import opened Legacy

  /** Every enabled target of the older registry is an enabled target of
      the current one, in the same order: identity matching is the first
      half of the current test. */
  lemma LegacyTargetsAreLinkedMeshes(w: World, src: ObjId)
    requires Listed(w.order, w.objs) && src in w.objs
    ensures IsSubsequence(AutoUpdateTargets(w, Some(src)), LinkedMeshes(w, Some(src), false))
  {
    var name := w.objs[src].name;
    SelectTwiceMonotone(w.order, w.objs, o => IsTarget(o, src), AutoUpdating,
      o => IsLinkedMesh(o, src, name, false));
  }

  /** A trigger while a task is pending: the older scheduler leaves the
      pending task registered and arms nothing; the current one unregisters
      it and arms a new task in its place. */
  lemma ThrottleKeepsDebounceReplaces(rt: Runtime, fac: TimerFacility, w: World, src: ObjId)
    requires Listed(w.order, w.objs) && src in w.objs
    requires Coherent(rt.timers, fac)
    requires w.objs[src].name in rt.timers
    requires AutoUpdateTargets(w, Some(src)) != []
    ensures var name := w.objs[src].name;
            var pending := rt.timers[name];
            var throttled := Legacy.ScheduleUpdate(LegacySys(rt.timers, fac, w), Some(src));
            var debounced := Scheduler.ScheduleUpdate(rt, fac, w, Some(src));
            && throttled == LegacySys(rt.timers, fac, w)
            && pending in throttled.fac.registered
            && pending !in debounced.fac.registered
            && debounced.rt.timers[name] == fac.next
            && debounced.rt.timers[name] != pending
  {
    LegacyTargetsAreLinkedMeshes(w, src);
    var name := w.objs[src].name;
    assert rt.timers[name] in fac.registered;
  }

  /** `k` triggers in a row for one source under the current scheduler. */
  function DebounceBurst(rt: Runtime, fac: TimerFacility, w: World, src: ObjId, k: nat): (s: Scheduled)
    requires Listed(w.order, w.objs) && src in w.objs
    ensures s.rt.fingerprints == rt.fingerprints && s.rt.lastModes == rt.lastModes
  {
    if k == 0 then Scheduled(rt, fac, None)
    else
      var before := DebounceBurst(rt, fac, w, src, k - 1);
      Scheduler.ScheduleUpdate(before.rt, before.fac, w, Some(src))
  }

  /** `t` is the only task pending for `name`: tracked for it, and the only
      registered callback carrying that name. */
  predicate SoleTask(s: Scheduled, name: string, t: TaskId)
  {
    && name in s.rt.timers && s.rt.timers[name] == t
    && forall u :: u in s.fac.registered && s.fac.registered[u].name == name ==> u == t
  }

  /** Each trigger of a burst arms one new task identity. */
  lemma {:induction false} DebounceBurstArms(rt: Runtime, fac: TimerFacility, w: World, src: ObjId, k: nat)
    requires Listed(w.order, w.objs) && src in w.objs
    requires LinkedMeshes(w, Some(src), false) != []
    ensures DebounceBurst(rt, fac, w, src, k).fac.next == fac.next + k
  {
    if k > 0 {
      DebounceBurstArms(rt, fac, w, src, k - 1);
      var before := DebounceBurst(rt, fac, w, src, k - 1);
      var after := Scheduler.ScheduleUpdate(before.rt, before.fac, w, Some(src));
      assert after.fac.next == before.fac.next + 1;
      assert DebounceBurst(rt, fac, w, src, k) == after;
    }
  }

  /** A burst keeps the pending-task map and the facility in step. */
  lemma {:induction false} DebounceBurstCoherent(rt: Runtime, fac: TimerFacility, w: World, src: ObjId, k: nat)
    requires Listed(w.order, w.objs) && src in w.objs
    requires Coherent(rt.timers, fac)
    ensures var s := DebounceBurst(rt, fac, w, src, k); Coherent(s.rt.timers, s.fac)
  {
    if k > 0 {
      DebounceBurstCoherent(rt, fac, w, src, k - 1);
      var before := DebounceBurst(rt, fac, w, src, k - 1);
      Scheduler.ScheduleKeepsCoherent(before.rt, before.fac, w, Some(src));
    }
  }

  /** One trigger for a source with enabled mesh copies tracks the next task
      identity under the source's name and keeps the bookkeeping coherent. */
  lemma RearmStep(rt: Runtime, fac: TimerFacility, w: World, src: ObjId)
    requires Listed(w.order, w.objs) && src in w.objs
    requires Coherent(rt.timers, fac)
    requires LinkedMeshes(w, Some(src), false) != []
    ensures var s := Scheduler.ScheduleUpdate(rt, fac, w, Some(src));
            && Coherent(s.rt.timers, s.fac)
            && s.fac.next == fac.next + 1
            && SoleTask(s, w.objs[src].name, fac.next)
  {
    Scheduler.ScheduleKeepsCoherent(rt, fac, w, Some(src));
    var s := Scheduler.ScheduleUpdate(rt, fac, w, Some(src));
    PendingIsOwner(s.rt.timers, s.fac, w.objs[src].name);
  }

  /** After a burst of `k` triggers, exactly one task is pending for the
      source, and it is the one armed by the last trigger. */
  lemma DebounceKeepsLatest(rt: Runtime, fac: TimerFacility, w: World, src: ObjId, k: nat)
    requires Listed(w.order, w.objs) && src in w.objs
    requires Coherent(rt.timers, fac)
    requires LinkedMeshes(w, Some(src), false) != []
    requires k >= 1
    ensures var s := DebounceBurst(rt, fac, w, src, k);
            && Coherent(s.rt.timers, s.fac)
            && s.fac.next == fac.next + k
            && SoleTask(s, w.objs[src].name, fac.next + k - 1)
  {
    DebounceBurstArms(rt, fac, w, src, k - 1);
    DebounceBurstCoherent(rt, fac, w, src, k - 1);
    var before := DebounceBurst(rt, fac, w, src, k - 1);
    RearmStep(before.rt, before.fac, w, src);
    assert DebounceBurst(rt, fac, w, src, k) == Scheduler.ScheduleUpdate(before.rt, before.fac, w, Some(src));
  }

  /** `k` triggers in a row for one source under the older scheduler. */
  function ThrottleBurst(s: LegacySys, src: ObjId, k: nat): (r: LegacySys)
    requires Listed(s.world.order, s.world.objs) && src in s.world.objs
    ensures r.world == s.world
  {
    if k == 0 then s
    else Legacy.ScheduleUpdate(ThrottleBurst(s, src, k - 1), Some(src))
  }

  /** A throttled burst keeps the pending-task map and the facility in step. */
  lemma {:induction false} ThrottleBurstCoherent(s: LegacySys, src: ObjId, k: nat)
    requires Listed(s.world.order, s.world.objs) && src in s.world.objs
    requires Coherent(s.timers, s.fac)
    ensures var r := ThrottleBurst(s, src, k); Coherent(r.timers, r.fac)
  {
    if k > 0 {
      ThrottleBurstCoherent(s, src, k - 1);
      Legacy.ScheduleKeepsCoherent(ThrottleBurst(s, src, k - 1), Some(src));
    }
  }

  /** After a burst of `k` triggers starting with nothing pending, exactly
      one task was ever armed, the one armed by the first trigger; the later
      triggers armed nothing. */
  lemma {:induction false} ThrottleKeepsFirst(s: LegacySys, src: ObjId, k: nat)
    requires Listed(s.world.order, s.world.objs) && src in s.world.objs
    requires Coherent(s.timers, s.fac)
    requires s.world.objs[src].name !in s.timers
    requires AutoUpdateTargets(s.world, Some(src)) != []
    requires k >= 1
    ensures var r := ThrottleBurst(s, src, k);
            var name := s.world.objs[src].name;
            && Coherent(r.timers, r.fac)
            && r.fac.next == s.fac.next + 1
            && name in r.timers && r.timers[name] == s.fac.next
  {
    ThrottleBurstCoherent(s, src, k);
    if k > 1 {
      ThrottleKeepsFirst(s, src, k - 1);
      var before := ThrottleBurst(s, src, k - 1);
      assert ThrottleBurst(s, src, k) == Legacy.ScheduleUpdate(before, Some(src)) == before;
    }
  }
}

=== FILE: registry.dfy ===
/** The link registry of core.py: which mesh copies belong to a source. */
module Registry {
  import opened Common
  import opened Scene

  /** The source a link points at is `src` itself, or (when `src` has a
      non-empty name) an object carrying the same name: identity can go
      stale across reload and undo while names stay valid. */
  predicate PointsAt(link: Link, srcId: ObjId, srcName: string)
  {
    link.source.Some? &&
    (link.source.value.id == srcId || (srcName != "" && link.source.value.name == srcName))
  }

  /** The per-object test of `linked_meshes_for_source`: a mesh object with
      a link record, enabled unless disabled links are wanted, pointing at
      the source. */
  predicate IsLinkedMesh(o: Obj, srcId: ObjId, srcName: string, includeDisabled: bool)
  {
    && o.kind == MeshObject
    && o.link.Some?
    && (includeDisabled || o.link.value.autoUpdate)
    && PointsAt(o.link.value, srcId, srcName)
  }

  /** `linked_meshes_for_source(src, include_disabled=...)`. */
  function LinkedMeshes(w: World, src: Option<ObjId>, includeDisabled: bool): (r: seq<ObjId>)
    requires Listed(w.order, w.objs)
    requires src.Some? ==> src.value in w.objs
    ensures src.None? ==> r == []
    ensures IsSubsequence(r, w.order)
    ensures forall i :: 0 <= i < |r| ==> r[i] in w.objs && w.objs[r[i]].kind == MeshObject
    ensures forall i :: 0 <= i < |r| ==> w.objs[r[i]].link.Some?
    ensures !includeDisabled ==> forall i :: 0 <= i < |r| ==> w.objs[r[i]].link.value.autoUpdate
    ensures src.Some? ==> forall id :: id in w.order ==>
              (id in r <==> IsLinkedMesh(w.objs[id], src.value, w.objs[src.value].name, includeDisabled))
  {
    match src
    case None => []
    case Some(s) =>
      var name := w.objs[s].name;
      var r := Select(w.order, w.objs, o => IsLinkedMesh(o, s, name, includeDisabled));
      SubsequenceMembers(r, w.order);
      r
  }

  /** Asking for disabled links too only adds objects: the enabled result is
      an order-preserving subsequence of the full one. */
  lemma IncludeDisabledOnlyAdds(w: World, src: Option<ObjId>)
    requires Listed(w.order, w.objs)
    requires src.Some? ==> src.value in w.objs
    ensures IsSubsequence(LinkedMeshes(w, src, false), LinkedMeshes(w, src, true))
  {
    if src.Some? {
      var s := src.value;
      var name := w.objs[s].name;
      SelectMonotone(w.order, w.objs,
        o => IsLinkedMesh(o, s, name, false), o => IsLinkedMesh(o, s, name, true));
    }
  }
}

=== FILE: router.dfy ===
/** The event router of core.py (`depsgraph_update_handler`): for each
    reported update, record the mode of the affected curve or surface
    objects, consult the fingerprint cache when appropriate, and schedule a
    rebuild when either signal fires. The handler never touches the scene. */
module Router {
  import opened Common
  import opened Scene
  import opened Timers
  import opened Registry
  import opened Detector
  import opened Scheduler

  /** What an update entry names: an object, a curve data-block, or any
      other kind of data-block. */
  datatype IdRef = ObjectId(obj: ObjId) | CurveDataId(curve: CurveId) | OtherId

  datatype DepsUpdate = DepsUpdate(id: IdRef, isUpdatedGeometry: bool)

  /** One notification batch: whether any OBJECT or CURVE data-block was
      updated (`id_type_updated`), and the update entries in order. */
  datatype Depsgraph = Depsgraph(objectTypeUpdated: bool, curveTypeUpdated: bool, updates: seq<DepsUpdate>)

  /** Every object an update names exists in the scene. */
  predicate UpdatesResolve(w: World, updates: seq<DepsUpdate>)
  {
    forall i :: 0 <= i < |updates| && updates[i].id.ObjectId? ==> updates[i].id.obj in w.objs
  }

  /** The scheduling condition of the handler for one object: the geometry
      changed (looked at only when `geometry` holds) or edit mode was left. */
  predicate Triggered(rt: Runtime, hash: Hasher, o: Obj, geometry: bool)
  {
    (geometry && FingerprintDiffers(rt, hash, o)) || ModeExited(rt, o)
  }

  /** Both checks on one curve or surface object, then `schedule_update`
      when either fires. The mode is recorded first; the fingerprint cache
      is consulted only when `geometry` holds. */
  function Recheck(s: Sys, hash: Hasher, id: ObjId, geometry: bool): (r: Sys)
    requires Listed(s.world.order, s.world.objs) && id in s.world.objs
    ensures r.world == s.world
    ensures var o := s.world.objs[id];
            var fires := IsSourceType(o) && Triggered(s.rt, hash, o, geometry) && LinkedMeshes(s.world, Some(id), false) != [];
            && r.fac.next == s.fac.next + (if fires then 1 else 0)
            && (!fires ==> r.fac == s.fac && r.rt.timers == s.rt.timers)
            && (fires ==> o.name in r.rt.timers && r.rt.timers[o.name] == s.fac.next)
            && (fires ==> s.fac.next in r.fac.registered
                          && r.fac.registered[s.fac.next] == Armed(o.name, TargetDelay(s.world.objs, LinkedMeshes(s.world, Some(id), false))))
    ensures var o := s.world.objs[id];
            && (forall n :: n in s.rt.timers && n != o.name ==> n in r.rt.timers && r.rt.timers[n] == s.rt.timers[n])
            && (forall n :: n in r.rt.timers ==> n in s.rt.timers || n == o.name)
            && (forall u :: u in s.fac.registered && u != s.fac.next && !(o.name in s.rt.timers && s.rt.timers[o.name] == u) ==>
                  u in r.fac.registered && r.fac.registered[u] == s.fac.registered[u])
            && (forall u :: u in r.fac.registered ==> u in s.fac.registered || u == s.fac.next)
    ensures var o := s.world.objs[id];
            IsSourceType(o) && o.name != "" ==> r.rt.lastModes == s.rt.lastModes[o.name := o.mode]
    ensures !IsSourceType(s.world.objs[id]) ==> r == s
    ensures !geometry ==> r.rt.fingerprints == s.rt.fingerprints
    ensures var o := s.world.objs[id];
            geometry && IsSourceType(o) && o.name != "" && o.data.CurveRef? ==>
              r.rt.fingerprints == s.rt.fingerprints[o.name := hash(o)]
    ensures s.rt.fingerprints.Keys <= r.rt.fingerprints.Keys && s.rt.lastModes.Keys <= r.rt.lastModes.Keys
  {
    var o := s.world.objs[id];
    if !IsSourceType(o) then s
    else
      var mode := RecordModeTransition(s.rt, o);
      var geom := if geometry then GeometryChanged(mode.rt, hash, o) else Check(false, mode.rt);
      if geom.result || mode.result then
        var sched := ScheduleUpdate(geom.rt, s.fac, s.world, Some(id));
        Sys(sched.rt, sched.fac, s.world)
      else Sys(geom.rt, s.fac, s.world)
  }

  /** The curve and surface objects whose data is curve data-block `c`. */
  function UsersOf(w: World, c: CurveId): (r: seq<ObjId>)
    requires Listed(w.order, w.objs)
    ensures forall i :: 0 <= i < |r| ==> r[i] in w.objs && IsSourceType(w.objs[r[i]]) && w.objs[r[i]].data == CurveRef(c)
    ensures forall id :: id in w.order && IsSourceType(w.objs[id]) && w.objs[id].data == CurveRef(c) ==> id in r
    ensures IsSubsequence(r, w.order)
  {
    var r := Select(w.order, w.objs, o => IsSourceType(o) && o.data == CurveRef(c));
    assert forall id :: id in w.order ==> exists i :: 0 <= i < |w.order| && w.order[i] == id;
    r
  }

  /** Both checks, unconditionally, on each object of `ids` in turn. */
  function RecheckAll(s: Sys, hash: Hasher, ids: seq<ObjId>): (r: Sys)
    requires Listed(s.world.order, s.world.objs)
    requires forall i :: 0 <= i < |ids| ==> ids[i] in s.world.objs
    ensures r.world == s.world
    ensures r.fac.next >= s.fac.next
    ensures s.rt.fingerprints.Keys <= r.rt.fingerprints.Keys && s.rt.lastModes.Keys <= r.rt.lastModes.Keys
    ensures forall i :: 0 <= i < |ids| && IsSourceType(s.world.objs[ids[i]]) && s.world.objs[ids[i]].name != "" ==>
              s.world.objs[ids[i]].name in r.rt.lastModes
    ensures forall i :: 0 <= i < |ids| && IsSourceType(s.world.objs[ids[i]]) && s.world.objs[ids[i]].name != ""
                        && s.world.objs[ids[i]].data.CurveRef? ==>
              s.world.objs[ids[i]].name in r.rt.fingerprints
    decreases |ids|
  {
    if |ids| == 0 then s
    else
      var s1 := Recheck(s, hash, ids[0], true);
      var r := RecheckAll(s1, hash, ids[1..]);
      assert forall i :: 1 <= i < |ids| ==> ids[i] == ids[1..][i - 1];
      r
  }

  /** One update entry. */
  function RouteUpdate(s: Sys, hash: Hasher, u: DepsUpdate): (r: Sys)
    requires Listed(s.world.order, s.world.objs)
    requires u.id.ObjectId? ==> u.id.obj in s.world.objs
    ensures r.world == s.world
    ensures r.fac.next >= s.fac.next
  {
    match u.id
    case ObjectId(id) => Recheck(s, hash, id, u.isUpdatedGeometry)
    case CurveDataId(c) => RecheckAll(s, hash, UsersOf(s.world, c))
    case OtherId => s
  }

  /** The update entries of a batch, in order. */
  function RouteAll(s: Sys, hash: Hasher, updates: seq<DepsUpdate>): (r: Sys)
    requires Listed(s.world.order, s.world.objs)
    requires UpdatesResolve(s.world, updates)
    ensures r.world == s.world
    ensures r.fac.next >= s.fac.next
    decreases |updates|
  {
    if |updates| == 0 then s
    else
      var s1 := RouteUpdate(s, hash, updates[0]);
      assert forall i :: 1 <= i < |updates| ==> updates[i] == updates[1..][i - 1];
      RouteAll(s1, hash, updates[1..])
  }

  /** `depsgraph_update_handler(scene, depsgraph)`. */
  function DepsgraphUpdateHandler(s: Sys, hash: Hasher, dg: Depsgraph): (r: Sys)
    requires Listed(s.world.order, s.world.objs)
    requires UpdatesResolve(s.world, dg.updates)
    ensures !(dg.objectTypeUpdated || dg.curveTypeUpdated) ==> r == s
    ensures r.world == s.world
    ensures r.fac.next >= s.fac.next
  {
    if !(dg.objectTypeUpdated || dg.curveTypeUpdated) then s
    else RouteAll(s, hash, dg.updates)
  }

  /** A recheck keeps the pending-task map and the facility in step. */
  lemma RecheckKeepsCoherent(s: Sys, hash: Hasher, id: ObjId, geometry: bool)
    requires Listed(s.world.order, s.world.objs) && id in s.world.objs
    requires Coherent(s.rt.timers, s.fac)
    ensures var r := Recheck(s, hash, id, geometry); Coherent(r.rt.timers, r.fac)
  {
    var o := s.world.objs[id];
    if IsSourceType(o) {
      var mode := RecordModeTransition(s.rt, o);
      var geom := if geometry then GeometryChanged(mode.rt, hash, o) else Check(false, mode.rt);
      ScheduleKeepsCoherent(geom.rt, s.fac, s.world, Some(id));
    }
  }

  /** Rechecking each object in turn keeps the pending-task map and the
      facility in step. */
  lemma {:induction false} RecheckAllKeepsCoherent(s: Sys, hash: Hasher, ids: seq<ObjId>)
    requires Listed(s.world.order, s.world.objs)
    requires forall i :: 0 <= i < |ids| ==> ids[i] in s.world.objs
    requires Coherent(s.rt.timers, s.fac)
    ensures var r := RecheckAll(s, hash, ids); Coherent(r.rt.timers, r.fac)
    decreases |ids|
  {
    if |ids| > 0 {
      RecheckKeepsCoherent(s, hash, ids[0], true);
      RecheckAllKeepsCoherent(Recheck(s, hash, ids[0], true), hash, ids[1..]);
    }
  }

  /** However many notifications arrive, the handler leaves at most one
      registered task per source, each tracked under its name. */
  lemma {:induction false} HandlerKeepsCoherent(s: Sys, hash: Hasher, dg: Depsgraph)
    requires Listed(s.world.order, s.world.objs)
    requires UpdatesResolve(s.world, dg.updates)
    requires Coherent(s.rt.timers, s.fac)
    ensures var r := DepsgraphUpdateHandler(s, hash, dg); Coherent(r.rt.timers, r.fac) && SingleFlight(r.fac)
  {
    if dg.objectTypeUpdated || dg.curveTypeUpdated {
      RouteAllKeepsCoherent(s, hash, dg.updates);
    }
    var r := DepsgraphUpdateHandler(s, hash, dg);
    CoherentIsSingleFlight(r.rt.timers, r.fac);
  }

  /** Routing each update entry in turn keeps the pending-task map and the
      facility in step. */
  lemma {:induction false} RouteAllKeepsCoherent(s: Sys, hash: Hasher, updates: seq<DepsUpdate>)
    requires Listed(s.world.order, s.world.objs)
    requires UpdatesResolve(s.world, updates)
    requires Coherent(s.rt.timers, s.fac)
    ensures var r := RouteAll(s, hash, updates); Coherent(r.rt.timers, r.fac)
    decreases |updates|
  {
    if |updates| > 0 {
      var u := updates[0];
      match u.id {
        case ObjectId(id) => RecheckKeepsCoherent(s, hash, id, u.isUpdatedGeometry);
        case CurveDataId(c) => RecheckAllKeepsCoherent(s, hash, UsersOf(s.world, c));
        case OtherId =>
      }
      var s1 := RouteUpdate(s, hash, u);
      assert forall i :: 1 <= i < |updates| ==> updates[i] == updates[1..][i - 1];
      RouteAllKeepsCoherent(s1, hash, updates[1..]);
    }
  }

  /** After `forget_fingerprint`, the next geometry notification for a
      named curve object with enabled mesh copies always schedules a
      rebuild, whether or not its content changed meanwhile. */
  lemma ForgetThenNotifySchedules(s: Sys, hash: Hasher, id: ObjId)
    requires Listed(s.world.order, s.world.objs) && id in s.world.objs
    requires IsSourceType(s.world.objs[id]) && s.world.objs[id].name != ""
    requires LinkedMeshes(s.world, Some(id), false) != []
    ensures var o := s.world.objs[id];
            var r := Recheck(s.(rt := Forget(s.rt, o.name)), hash, id, true);
            o.name in r.rt.timers && r.rt.timers[o.name] == s.fac.next && r.fac.next == s.fac.next + 1
  {
    var o := s.world.objs[id];
    assert FingerprintDiffers(Forget(s.rt, o.name), hash, o);
  }
}

=== FILE: scene.dfy ===
/** The host scene as the add-on sees it: objects in `bpy.data.objects`
    order, each with a type, a name, an interaction mode, a data-block
    reference and (on mesh copies) the `n2m` link record; plus the store of
    mesh data-blocks with their user counts, names and material lists. */
module Scene {
  import opened Common

  type ObjId = nat
  type MeshId = nat
  type CurveId = nat
  type MaterialId = nat

  /** `Object.type`, reduced to the values the add-on distinguishes. */
  datatype ObjType = MeshObject | CurveObject | SurfaceObject | OtherObject

  /** The `Object.mode` value that marks direct point editing. */
  const EditMode: string := "EDIT"

  /** What a link's `source` pointer resolves to: the referenced object's
      identity and the name read through the reference. */
  datatype SourceRef = SourceRef(id: ObjId, name: string)

  /** The `n2m` property group stored on a mesh copy. */
  datatype Link = Link(
    source: Option<SourceRef>,
    autoUpdate: bool,
    debounce: real,
    applyModifiers: bool,
    preserveAllDataLayers: bool)

  /** `Object.data`: a mesh, a curve data-block, something else, or nothing. */
  datatype DataRef = NoData | MeshRef(mesh: MeshId) | CurveRef(curve: CurveId) | OtherData

  datatype Obj = Obj(name: string, kind: ObjType, mode: string, data: DataRef, link: Option<Link>)

  /** A mesh data-block: its name, user count and material slots. */
  datatype Mesh = Mesh(name: string, users: nat, materials: seq<MaterialId>)

  /** `bpy.data.meshes`; `next` is the identity the next new mesh receives. */
  datatype Store = Store(meshes: map<MeshId, Mesh>, next: MeshId)

  datatype World = World(order: seq<ObjId>, objs: map<ObjId, Obj>, store: Store)

  /** Curve and surface objects are the sources the add-on watches. */
  predicate IsSourceType(o: Obj)
  {
    o.kind == CurveObject || o.kind == SurfaceObject
  }

  /** Every listed object exists. */
  predicate Listed(order: seq<ObjId>, objs: map<ObjId, Obj>)
  {
    forall i :: 0 <= i < |order| ==> order[i] in objs
  }

  /** What the host guarantees of its data: every listed object exists and is
      listed once, and every mesh identity in use was handed out by the store. */
  predicate WellFormed(w: World)
  {
    && Listed(w.order, w.objs)
    && Distinct(w.order)
    && (forall m :: m in w.store.meshes ==> m < w.store.next)
    && (forall id :: id in w.objs && w.objs[id].data.MeshRef? ==> w.objs[id].data.mesh < w.store.next)
  }

  /** The objects of `order` that satisfy `keep`, in list order: the shape of
      every registry query (a loop appending the objects that pass a test). */
  function Select(order: seq<ObjId>, objs: map<ObjId, Obj>, keep: Obj -> bool): (r: seq<ObjId>)
    requires Listed(order, objs)
    ensures IsSubsequence(r, order)
    ensures forall i :: 0 <= i < |r| ==> r[i] in objs && keep(objs[r[i]])
    ensures forall i :: 0 <= i < |order| && keep(objs[order[i]]) ==> order[i] in r
    decreases |order|
  {
    if |order| == 0 then []
    else
      var rest := Select(order[1..], objs, keep);
      assert forall i :: 1 <= i < |order| ==> order[i] == order[1..][i - 1];
      if keep(objs[order[0]]) then [order[0]] + rest
      else rest
  }

  /** Selecting with a weaker test keeps every object a stronger test keeps,
      in the same relative order. */
  lemma {:induction false} SelectMonotone(order: seq<ObjId>, objs: map<ObjId, Obj>, k1: Obj -> bool, k2: Obj -> bool)
    requires Listed(order, objs)
    requires forall i :: 0 <= i < |order| ==> k1(objs[order[i]]) ==> k2(objs[order[i]])
    ensures IsSubsequence(Select(order, objs, k1), Select(order, objs, k2))
    decreases |order|
  {
    if |order| > 0 {
      var a := Select(order[1..], objs, k1);
      var b := Select(order[1..], objs, k2);
      SelectMonotone(order[1..], objs, k1, k2);
      var x := order[0];
      if k1(objs[x]) {
        assert ([x] + a)[1..] == a && ([x] + b)[1..] == b;
      } else if k2(objs[x]) {
        assert ([x] + b)[1..] == b;
        assert |a| > 0 ==> a[0] != x;
      }
    }
  }

  /** Filtering a selection again equals selecting with both tests at once. */
  lemma {:induction false} SelectTwice(order: seq<ObjId>, objs: map<ObjId, Obj>, k1: Obj -> bool, k2: Obj -> bool)
    requires Listed(order, objs)
    ensures Select(Select(order, objs, k1), objs, k2) == Select(order, objs, o => k1(o) && k2(o))
    decreases |order|
  {
    if |order| > 0 {
      SelectTwice(order[1..], objs, k1, k2);
      var x := order[0];
      var a := Select(order[1..], objs, k1);
      if k1(objs[x]) {
        assert ([x] + a)[1..] == a;
      }
    }
  }

  /** Filtering a selection again keeps no object that a test implied by
      both filters would drop, and keeps their order. */
  lemma {:induction false} SelectTwiceMonotone(order: seq<ObjId>, objs: map<ObjId, Obj>, k1: Obj -> bool, k2: Obj -> bool, k3: Obj -> bool)
    requires Listed(order, objs)
    requires forall i :: 0 <= i < |order| ==> k1(objs[order[i]]) && k2(objs[order[i]]) ==> k3(objs[order[i]])
    ensures IsSubsequence(Select(Select(order, objs, k1), objs, k2), Select(order, objs, k3))
  {
    SelectTwice(order, objs, k1, k2);
    SelectMonotone(order, objs, o => k1(o) && k2(o), k3);
  }

  /** `bpy.data.objects.get(name)`: the first listed object with that name. */
  function Lookup(order: seq<ObjId>, objs: map<ObjId, Obj>, name: string): (r: Option<ObjId>)
    requires Listed(order, objs)
    ensures r.None? <==> forall i :: 0 <= i < |order| ==> objs[order[i]].name != name
    ensures r.Some? ==> exists i :: 0 <= i < |order| && order[i] == r.value
                                 && objs[r.value].name == name
                                 && forall j :: 0 <= j < i ==> objs[order[j]].name != name
    decreases |order|
  {
    if |order| == 0 then None
    else if objs[order[0]].name == name then Some(order[0])
    else
      var r := Lookup(order[1..], objs, name);
      assert forall i :: 1 <= i < |order| ==> order[i] == order[1..][i - 1];
      if r.Some? then
        var k :| 0 <= k < |order[1..]| && order[1..][k] == r.value
                 && objs[r.value].name == name
                 && forall j :: 0 <= j < k ==> objs[order[1..][j]].name != name;
        assert order[k + 1] == r.value;
        r
      else r
  }

  /** A new mesh data-block enters the store under a fresh identity. */
  function Insert(s: Store, m: Mesh): (r: Store)
    requires forall k :: k in s.meshes ==> k < s.next
    ensures s.next !in s.meshes
    ensures r.next == s.next + 1 && r.meshes.Keys == s.meshes.Keys + {s.next}
    ensures r.meshes[s.next] == m
    ensures forall k :: k in s.meshes ==> r.meshes[k] == s.meshes[k]
  {
    Store(s.meshes[s.next := m], s.next + 1)
  }
}

=== FILE: scheduler.dfy ===
/** The debounce scheduler of core.py: at most one pending task per source
    name, re-armed on every trigger with the smallest clamped debounce of
    the source's enabled mesh copies; and the firing of a task, which runs
    the update pass and then drops the task's entry whatever happened. */
module Scheduler {
  import opened Common
  import opened Scene
  import opened Timers
  import opened Registry
  import opened Detector
  import opened Update

  /** The add-on's runtime state with the host's timers and scene. */
  datatype Sys = Sys(rt: Runtime, fac: TimerFacility, world: World)

  /** The debounce of each target, in target order. */
  function Debounces(objs: map<ObjId, Obj>, targets: seq<ObjId>): (ds: seq<real>)
    requires forall i :: 0 <= i < |targets| ==> targets[i] in objs && objs[targets[i]].link.Some?
    ensures |ds| == |targets|
    ensures forall i :: 0 <= i < |targets| ==> ds[i] == objs[targets[i]].link.value.debounce
  {
    seq(|targets|, i requires 0 <= i < |targets| => objs[targets[i]].link.value.debounce)
  }

  /** `min(max(t.n2m.debounce, 0.0) for t in targets)`. */
  function TargetDelay(objs: map<ObjId, Obj>, targets: seq<ObjId>): (d: real)
    requires |targets| > 0
    requires forall i :: 0 <= i < |targets| ==> targets[i] in objs && objs[targets[i]].link.Some?
    ensures d >= 0.0
    ensures forall t :: t in targets ==> d <= Clamp(objs[t].link.value.debounce)
    ensures exists t :: t in targets && d == Clamp(objs[t].link.value.debounce)
  {
    var ds := Debounces(objs, targets);
    var d := MinClamped(ds);
    assert forall t :: t in targets ==> exists i :: 0 <= i < |targets| && targets[i] == t;
    var k :| 0 <= k < |ds| && d == Clamp(ds[k]);
    assert targets[k] in targets;
    d
  }

  /** The outcome of `schedule_update`: new runtime state and timers, and
      the delay it returned (`None` when nothing was armed). */
  datatype Scheduled = Scheduled(rt: Runtime, fac: TimerFacility, delay: Option<real>)

  /** The reset step: pop and unregister the task pending for `name`, if
      any, then register a new closure and record it as pending. */
  function Rearm(rt: Runtime, fac: TimerFacility, name: string, delay: real): (s: Scheduled)
    ensures s.delay == Some(delay)
    ensures s.rt == rt.(timers := rt.timers[name := fac.next])
    ensures s.fac.next == fac.next + 1
    ensures fac.next in s.fac.registered && s.fac.registered[fac.next] == Armed(name, delay)
    ensures name in rt.timers && rt.timers[name] != fac.next ==> rt.timers[name] !in s.fac.registered
    ensures forall t :: t in fac.registered && t != fac.next && !(name in rt.timers && rt.timers[name] == t) ==>
              t in s.fac.registered && s.fac.registered[t] == fac.registered[t]
    ensures forall t :: t in s.fac.registered ==> t in fac.registered || t == fac.next
  {
    var cancelled := if name in rt.timers then UnregisterAll(fac, {rt.timers[name]}) else fac;
    Scheduled(rt.(timers := rt.timers[name := fac.next]), Register(cancelled, name, delay), Some(delay))
  }

  /** `schedule_update(src_obj)`. */
  function ScheduleUpdate(rt: Runtime, fac: TimerFacility, w: World, src: Option<ObjId>): (s: Scheduled)
    requires Listed(w.order, w.objs)
    requires src.Some? ==> src.value in w.objs
    ensures s.rt.fingerprints == rt.fingerprints && s.rt.lastModes == rt.lastModes
    ensures src.None? || LinkedMeshes(w, src, false) == [] ==> s == Scheduled(rt, fac, None)
    ensures src.Some? && LinkedMeshes(w, src, false) != [] ==>
              var name := w.objs[src.value].name;
              var targets := LinkedMeshes(w, src, false);
              && s.delay.Some?
              && s.delay.value >= 0.0
              && (forall t :: t in targets ==> s.delay.value <= Clamp(w.objs[t].link.value.debounce))
              && (exists t :: t in targets && s.delay.value == Clamp(w.objs[t].link.value.debounce))
              && s.fac.next == fac.next + 1
              && s.rt.timers == rt.timers[name := fac.next]
              && s == Rearm(rt, fac, name, s.delay.value)
  {
    match src
    case None => Scheduled(rt, fac, None)
    case Some(id) =>
      var targets := LinkedMeshes(w, src, false);
      if targets == [] then Scheduled(rt, fac, None)
      else Rearm(rt, fac, w.objs[id].name, TargetDelay(w.objs, targets))
  }

  /** Re-arming keeps the pending-task map and the timer facility in step. */
  lemma ScheduleKeepsCoherent(rt: Runtime, fac: TimerFacility, w: World, src: Option<ObjId>)
    requires Listed(w.order, w.objs)
    requires src.Some? ==> src.value in w.objs
    requires Coherent(rt.timers, fac)
    ensures var s := ScheduleUpdate(rt, fac, w, src); Coherent(s.rt.timers, s.fac)
  {
    var s := ScheduleUpdate(rt, fac, w, src);
    if src.Some? && LinkedMeshes(w, src, false) != [] {
      var name := w.objs[src.value].name;
      forall t | t in s.fac.registered
        ensures s.fac.registered[t].name in s.rt.timers && s.rt.timers[s.fac.registered[t].name] == t
      {
        if t != fac.next {
          var n := fac.registered[t].name;
          assert rt.timers[n] == t;
          assert n != name;
        }
      }
    }
  }

  /** The one-shot `_run` of a task, fired by the host. The task leaves the
      facility, the update pass runs for the captured name, and the name's
      entry is popped from the pending-task map. `escaped` stands for an
      exception escaping the update pass before it changed anything; the
      entry is popped all the same. */
  function Fire(s: Sys, t: TaskId, escaped: bool, build: Builder): (r: Sys)
    requires t in s.fac.registered
    requires WellFormed(s.world)
    ensures var name := s.fac.registered[t].name;
            && name !in r.rt.timers
            && (forall n :: n in s.rt.timers && n != name ==> n in r.rt.timers && r.rt.timers[n] == s.rt.timers[n])
            && r.rt.timers.Keys <= s.rt.timers.Keys
    ensures t !in r.fac.registered && r.fac.next == s.fac.next
    ensures forall u :: u in s.fac.registered && u != t ==> u in r.fac.registered && r.fac.registered[u] == s.fac.registered[u]
    ensures r.fac.registered.Keys <= s.fac.registered.Keys
    ensures !escaped ==>
              Pass(r.rt.(timers := s.rt.timers), r.world) ==
              UpdateNowByName(s.rt, s.world, s.fac.registered[t].name, false, build)
    ensures !escaped && Lookup(s.world.order, s.world.objs, s.fac.registered[t].name).None? ==>
              r.world == s.world && s.fac.registered[t].name !in r.rt.fingerprints && s.fac.registered[t].name !in r.rt.lastModes
    ensures escaped ==> r.world == s.world && r.rt.fingerprints == s.rt.fingerprints && r.rt.lastModes == s.rt.lastModes
  {
    var name := s.fac.registered[t].name;
    var fac := UnregisterAll(s.fac, {t});
    var p := if escaped then Pass(s.rt, s.world) else UpdateNowByName(s.rt, s.world, name, false, build);
    Sys(p.rt.(timers := p.rt.timers - {name}), fac, p.world)
  }

  /** Firing keeps the pending-task map and the timer facility in step: the
      entry popped is exactly the task that fired. */
  lemma FireKeepsCoherent(s: Sys, t: TaskId, escaped: bool, build: Builder)
    requires t in s.fac.registered
    requires WellFormed(s.world)
    requires Coherent(s.rt.timers, s.fac)
    ensures var r := Fire(s, t, escaped, build); Coherent(r.rt.timers, r.fac)
  {
    var r := Fire(s, t, escaped, build);
    var name := s.fac.registered[t].name;
    assert s.rt.timers[name] == t;
    forall n | n in r.rt.timers
      ensures r.rt.timers[n] in r.fac.registered && r.fac.registered[r.rt.timers[n]].name == n
    {
      assert r.rt.timers[n] == s.rt.timers[n];
      assert s.rt.timers[n] != t;
    }
  }

  /** `clear_runtime_state()`: unregister every tracked task that is still
      registered, then empty all three maps. */
  function ClearRuntimeState(s: Sys): (r: Sys)
    ensures r.rt == EmptyRuntime && r.world == s.world && r.fac.next == s.fac.next
    ensures forall n :: n in s.rt.timers ==> s.rt.timers[n] !in r.fac.registered
    ensures forall t :: t in s.fac.registered && t !in s.rt.timers.Values ==>
              t in r.fac.registered && r.fac.registered[t] == s.fac.registered[t]
    ensures r.fac.registered.Keys <= s.fac.registered.Keys
    ensures Coherent(s.rt.timers, s.fac) ==> r.fac.registered == map[] && Coherent(r.rt.timers, r.fac)
  {
    UnregisterTrackedEmpties(s.rt.timers, s.fac);
    Sys(EmptyRuntime, UnregisterAll(s.fac, s.rt.timers.Values), s.world)
  }

  /** `load_post_handler`: a freshly loaded document starts with no pending
      task, no cached fingerprint and no recorded mode. */
  function LoadPost(s: Sys): (r: Sys)
    ensures r.rt.timers == map[] && r.rt.fingerprints == map[] && r.rt.lastModes == map[]
    ensures r.world == s.world
    ensures Coherent(s.rt.timers, s.fac) ==> r.fac.registered == map[]
  {
    ClearRuntimeState(s)
  }
}

=== FILE: swap.dfy ===
/** Attaching a newly built mesh to a mesh copy and releasing the mesh it
    replaces: `_replace_object_mesh` in core.py and `_safe_replace_mesh` in
    __init__.py. Assigning `obj.data` moves one user from the previous mesh
    to the new one; the host clamps a user count at zero. */
module Swap {
  import opened Common
  import opened Scene

  /** `obj.data = new`: the new mesh gains a user, the previous one loses one. */
  function Attach(s: Store, previous: Option<MeshId>, built: MeshId): (r: Store)
    requires built in s.meshes
    requires previous.Some? ==> previous.value in s.meshes && previous.value != built
  {
    var withNew := s.meshes[built := s.meshes[built].(users := s.meshes[built].users + 1)];
    match previous
    case None => Store(withNew, s.next)
    case Some(p) =>
      var pm := s.meshes[p];
      Store(withNew[p := pm.(users := if pm.users == 0 then 0 else pm.users - 1)], s.next)
  }

  /** `_replace_object_mesh(obj, new_mesh)` acting on the mesh store, where
      `previous` is `obj.data` before the call. */
  function ReplaceObjectMesh(s: Store, previous: Option<MeshId>, built: MeshId): (r: Store)
    requires built in s.meshes
    requires previous.Some? ==> previous.value in s.meshes && previous.value != built
    ensures r.next == s.next
    ensures built in r.meshes && r.meshes[built].users == s.meshes[built].users + 1
    ensures previous.Some? ==> r.meshes[built].materials == s.meshes[previous.value].materials
    ensures previous.None? ==> r.meshes[built] == s.meshes[built].(users := s.meshes[built].users + 1)
    ensures previous.Some? ==> (previous.value !in r.meshes <==> s.meshes[previous.value].users <= 1)
    ensures previous.Some? && previous.value in r.meshes ==>
              r.meshes[previous.value] == s.meshes[previous.value].(users := s.meshes[previous.value].users - 1)
    ensures previous.Some? ==>
              r.meshes[built].name ==
                (if previous.value !in r.meshes && s.meshes[previous.value].name != "" then s.meshes[previous.value].name
                 else s.meshes[built].name)
    ensures forall m :: m in s.meshes && m != built && previous != Some(m) ==>
              m in r.meshes && r.meshes[m] == s.meshes[m]
    ensures r.meshes.Keys <= s.meshes.Keys
  {
    var attached := Attach(s, previous, built);
    match previous
    case None => attached
    case Some(p) =>
      var prior := attached.meshes[p];
      var copied := attached.meshes[built].(materials := s.meshes[p].materials);
      if prior.users == 0 then
        var renamed := if prior.name != "" then copied.(name := prior.name) else copied;
        Store(attached.meshes[built := renamed] - {p}, s.next)
      else
        Store(attached.meshes[built := copied], s.next)
  }

  /** `_safe_replace_mesh(obj, new_mesh)` acting on the mesh store: the same
      user bookkeeping and release, no materials copied, no rename. */
  function SafeReplaceMesh(s: Store, previous: Option<MeshId>, built: MeshId): (r: Store)
    requires built in s.meshes
    requires previous.Some? ==> previous.value in s.meshes && previous.value != built
    ensures r.next == s.next
    ensures built in r.meshes && r.meshes[built] == s.meshes[built].(users := s.meshes[built].users + 1)
    ensures previous.Some? ==> (previous.value !in r.meshes <==> s.meshes[previous.value].users <= 1)
    ensures previous.Some? && previous.value in r.meshes ==>
              r.meshes[previous.value] == s.meshes[previous.value].(users := s.meshes[previous.value].users - 1)
    ensures forall m :: m in s.meshes && m != built && previous != Some(m) ==>
              m in r.meshes && r.meshes[m] == s.meshes[m]
    ensures r.meshes.Keys <= s.meshes.Keys
  {
    var attached := Attach(s, previous, built);
    if previous.Some? && attached.meshes[previous.value].users == 0 then
      Store(attached.meshes - {previous.value}, s.next)
    else attached
  }

  /** The two swaps release exactly the same data-blocks and keep the same
      user counts; they differ only in the new mesh's materials and name. */
  lemma SwapsAgreeOnRelease(s: Store, previous: Option<MeshId>, built: MeshId)
    requires built in s.meshes
    requires previous.Some? ==> previous.value in s.meshes && previous.value != built
    ensures var a := ReplaceObjectMesh(s, previous, built);
            var b := SafeReplaceMesh(s, previous, built);
            && a.meshes.Keys == b.meshes.Keys
            && (forall m :: m in a.meshes && m != built ==> a.meshes[m] == b.meshes[m])
            && a.meshes[built] == b.meshes[built].(name := a.meshes[built].name, materials := a.meshes[built].materials)
  {
  }
}

=== FILE: timers.dfy ===
/** The host's one-shot timer facility (`bpy.app.timers`) and the add-on's
    own bookkeeping of pending tasks (a map from source name to the task
    armed for it). Each `_run` closure the scheduler creates is a distinct
    callback, so the facility hands out a fresh task identity per
    registration. Wall-clock time is not modelled: firing is an explicit
    event chosen by the caller. */
module Timers {

  type TaskId = nat

  /** A registered callback: the source name its closure captured and the
      first interval it was registered with. */
  datatype Armed = Armed(name: string, delay: real)

  datatype TimerFacility = TimerFacility(registered: map<TaskId, Armed>, next: TaskId)

  /** Identities at or above `next` have never been handed out. */
  predicate Valid(f: TimerFacility)
  {
    forall t :: t in f.registered ==> t < f.next
  }

  /** `bpy.app.timers.register(fn, first_interval=delay)` for a new closure. */
  function Register(f: TimerFacility, name: string, delay: real): (r: TimerFacility)
    ensures r.next == f.next + 1
    ensures r.registered.Keys == f.registered.Keys + {f.next}
    ensures r.registered[f.next] == Armed(name, delay)
    ensures forall t :: t in f.registered && t != f.next ==> r.registered[t] == f.registered[t]
    ensures Valid(f) ==> Valid(r) && f.next !in f.registered
  {
    TimerFacility(f.registered[f.next := Armed(name, delay)], f.next + 1)
  }

  /** `if is_registered(fn): unregister(fn)` for every callback in `ts`. */
  function UnregisterAll(f: TimerFacility, ts: set<TaskId>): (r: TimerFacility)
    ensures r.next == f.next
    ensures forall t :: t in ts ==> t !in r.registered
    ensures forall t :: t in f.registered && t !in ts ==> t in r.registered && r.registered[t] == f.registered[t]
    ensures forall t :: t in r.registered ==> t in f.registered
  {
    TimerFacility(f.registered - ts, f.next)
  }

  /** The pending-task map and the facility agree: every tracked task is
      registered under its own name, and every registered task is the one
      tracked for its name. */
  predicate Coherent(pending: map<string, TaskId>, f: TimerFacility)
  {
    && Valid(f)
    && (forall n :: n in pending ==> pending[n] in f.registered && f.registered[pending[n]].name == n)
    && (forall t :: t in f.registered ==> f.registered[t].name in pending && pending[f.registered[t].name] == t)
  }

  /** At most one registered callback per source name. */
  predicate SingleFlight(f: TimerFacility)
  {
    forall t1, t2 :: t1 in f.registered && t2 in f.registered && f.registered[t1].name == f.registered[t2].name ==> t1 == t2
  }

  /** Coherent bookkeeping implies single flight: no source ever has two
      callbacks waiting. */
  lemma CoherentIsSingleFlight(pending: map<string, TaskId>, f: TimerFacility)
    requires Coherent(pending, f)
    ensures SingleFlight(f)
  {
    forall t1, t2 | t1 in f.registered && t2 in f.registered && f.registered[t1].name == f.registered[t2].name
      ensures t1 == t2
    {
      assert pending[f.registered[t1].name] == t1;
      assert pending[f.registered[t2].name] == t2;
    }
  }

  /** Under coherent bookkeeping, the only callback registered for `name`
      is the one tracked for it. */
  lemma PendingIsOwner(pending: map<string, TaskId>, f: TimerFacility, name: string)
    requires Coherent(pending, f)
    ensures forall t :: t in f.registered && f.registered[t].name == name ==> name in pending && pending[name] == t
  {
  }

  /** When every registered callback is tracked, unregistering the tracked
      ones leaves nothing registered. */
  lemma {:induction false} UnregisterTrackedEmpties(pending: map<string, TaskId>, f: TimerFacility)
    ensures Coherent(pending, f) ==> UnregisterAll(f, pending.Values).registered == map[]
  {
    if Coherent(pending, f) {
      forall t | t in f.registered
        ensures t in pending.Values
      {
        assert pending[f.registered[t].name] == t;
      }
    }
  }
}

=== FILE: update.dfy ===
/** The update pass: for each mesh copy of a source, build a new mesh from
    the link's source and swap it in, one target at a time, a failed build
    leaving that target as it was and the remaining targets still
    processed. Building is an outside service: `build` is its outcome for
    the target as it stands when processed. */
module Update {
  import opened Common
  import opened Scene
  import opened Swap
  import opened Registry
  import opened Detector

  /** `new_from_object` either returns a new mesh data-block or raises. */
  datatype BuildResult = Built(mesh: Mesh) | Failed

  type Builder = Obj -> BuildResult

  /** Which swap an iteration uses: core.py copies materials and keeps the
      released mesh's name; __init__.py does neither. */
  datatype SwapPolicy = CopyMaterials | PlainSwap

  /** `if not link or not link.source: continue` lets only these through. */
  predicate HasSource(o: Obj)
  {
    o.link.Some? && o.link.value.source.Some?
  }

  /** The target is rebuilt and swapped in this pass. */
  predicate Swaps(o: Obj, build: Builder)
  {
    HasSource(o) && build(o).Built?
  }

  /** `obj.data` as a live mesh data-block of the store, if it is one. */
  function Previous(s: Store, d: DataRef): (p: Option<MeshId>)
    ensures p.Some? ==> p.value in s.meshes && d == MeshRef(p.value)
    ensures p.None? ==> !(d.MeshRef? && d.mesh in s.meshes)
  {
    if d.MeshRef? && d.mesh in s.meshes then Some(d.mesh) else None
  }

  /** The record a swap leaves for the mesh built for `t`: the built mesh
      with one more user. With `CopyMaterials` and a previous mesh, it takes
      that mesh's material list, and its name too when that mesh loses its
      last user and has a non-empty name. With `PlainSwap` it keeps its own
      materials and name. */
  function Rebuilt(w: World, t: ObjId, build: Builder, policy: SwapPolicy): (m: Mesh)
    requires t in w.objs && Swaps(w.objs[t], build)
    ensures m.users == build(w.objs[t]).mesh.users + 1
  {
    var b := build(w.objs[t]).mesh;
    var grown := b.(users := b.users + 1);
    match Previous(w.store, w.objs[t].data)
    case None => grown
    case Some(p) =>
      if policy.PlainSwap? then grown
      else
        var prior := w.store.meshes[p];
        var name := if prior.users <= 1 && prior.name != "" then prior.name else b.name;
        grown.(materials := prior.materials, name := name)
  }

  /** One iteration of the target loop: skip, fail, or build and swap. */
  function ProcessTarget(w: World, t: ObjId, build: Builder, policy: SwapPolicy): (r: World)
    requires WellFormed(w) && t in w.objs
    ensures WellFormed(r)
    ensures r.order == w.order && r.objs.Keys == w.objs.Keys
    ensures forall id :: id in w.objs && id != t ==> r.objs[id] == w.objs[id]
    ensures !Swaps(w.objs[t], build) ==> r == w
    ensures Swaps(w.objs[t], build) ==>
              && r.objs[t] == w.objs[t].(data := MeshRef(w.store.next))
              && r.store.next == w.store.next + 1
              && w.store.next in r.store.meshes
              && r.store.meshes[w.store.next] == Rebuilt(w, t, build, policy)
    ensures Swaps(w.objs[t], build) && Previous(w.store, w.objs[t].data).Some? ==>
              && ReleasedOnce(w.store, r.store, w.objs[t].data.mesh)
              && (policy.CopyMaterials? ==> r.store.meshes[w.store.next].materials == w.store.meshes[w.objs[t].data.mesh].materials)
    ensures forall m :: m in w.store.meshes && !(Swaps(w.objs[t], build) && w.objs[t].data == MeshRef(m)) ==>
              m in r.store.meshes && r.store.meshes[m] == w.store.meshes[m]
    ensures forall m :: m in r.store.meshes ==> m in w.store.meshes || m == w.store.next
    ensures r.store.next >= w.store.next
  {
    var o := w.objs[t];
    if !HasSource(o) then w
    else
      match build(o)
      case Failed => w
      case Built(m) =>
        var created := w.store.next;
        var withNew := Insert(w.store, m);
        var prev := Previous(w.store, o.data);
        var swapped :=
          if policy.CopyMaterials? then ReplaceObjectMesh(withNew, prev, created)
          else SafeReplaceMesh(withNew, prev, created);
        World(w.order, w.objs[t := o.(data := MeshRef(created))], swapped)
  }

  /** The swap's release rule for a previous mesh `p`: it is gone exactly
      when its last user left, and otherwise it has lost one user. */
  ghost predicate ReleasedOnce(s: Store, r: Store, p: MeshId)
    requires p in s.meshes
  {
    && (p !in r.meshes <==> s.meshes[p].users <= 1)
    && (p in r.meshes ==> r.meshes[p] == s.meshes[p].(users := s.meshes[p].users - 1))
  }

  /** What a whole pass over `targets` does to the world: only targets
      change, and only in their data; a target that is skipped or whose
      build fails keeps its mesh; every target whose build succeeds ends
      with its own newly created mesh, whatever happened to the others;
      no mesh that was not the previous mesh of a swapped target is
      touched, and no released mesh comes back; the previous mesh of a
      rebuilt target that no other rebuilt target shares follows the
      swap's release rule, and under `policy` hands its materials on. */
  ghost predicate PassEffect(w: World, r: World, targets: seq<ObjId>, build: Builder, policy: SwapPolicy)
    requires forall i :: 0 <= i < |targets| ==> targets[i] in w.objs
  {
    && PassFrame(w, r, targets, build)
    && PassBuilt(w, r, targets, build)
    && PassStore(w, r, targets, build)
    && PassCreated(w, r, targets, build)
    && PassReleased(w, r, targets, build, policy)
    && PassContents(w, r, targets, build, policy)
  }

  /** The part of a pass's effect on objects that are not rebuilt. */
  ghost predicate PassFrame(w: World, r: World, targets: seq<ObjId>, build: Builder)
    requires forall i :: 0 <= i < |targets| ==> targets[i] in w.objs
  {
    && WellFormed(r)
    && r.order == w.order && r.objs.Keys == w.objs.Keys
    && r.store.next >= w.store.next
    && (forall id :: id in w.objs && id !in targets ==> r.objs[id] == w.objs[id])
    && (forall t :: t in targets && !Swaps(w.objs[t], build) ==> r.objs[t] == w.objs[t])
  }

  /** The part of a pass's effect on the targets that are rebuilt. */
  ghost predicate PassBuilt(w: World, r: World, targets: seq<ObjId>, build: Builder)
    requires forall i :: 0 <= i < |targets| ==> targets[i] in w.objs
    requires r.objs.Keys == w.objs.Keys
  {
    && (forall t :: t in targets && Swaps(w.objs[t], build) ==>
          && r.objs[t] == w.objs[t].(data := r.objs[t].data)
          && r.objs[t].data.MeshRef?
          && w.store.next <= r.objs[t].data.mesh
          && r.objs[t].data.mesh in r.store.meshes)
    && (forall t1, t2 :: t1 in targets && t2 in targets && t1 != t2 && Swaps(w.objs[t1], build) && Swaps(w.objs[t2], build) ==>
          r.objs[t1].data != r.objs[t2].data)
  }

  /** The part of a pass's effect on the mesh store. */
  ghost predicate PassStore(w: World, r: World, targets: seq<ObjId>, build: Builder)
    requires forall i :: 0 <= i < |targets| ==> targets[i] in w.objs
  {
    && (forall m :: m in w.store.meshes && NotReplaced(w, m, targets, build) ==>
          m in r.store.meshes && r.store.meshes[m] == w.store.meshes[m])
    && (forall m :: m in r.store.meshes && m < w.store.next ==> m in w.store.meshes)
  }

  /** What a pass creates: every mesh newer than the pass's start is the
      data of a target it rebuilt, and a pass that rebuilds nothing changes
      nothing at all. */
  ghost predicate PassCreated(w: World, r: World, targets: seq<ObjId>, build: Builder)
    requires forall i :: 0 <= i < |targets| ==> targets[i] in w.objs
    requires r.objs.Keys == w.objs.Keys
  {
    && (forall m :: m in r.store.meshes && m >= w.store.next ==>
          exists t :: t in targets && Swaps(w.objs[t], build) && r.objs[t].data == MeshRef(m))
    && ((forall t :: t in targets ==> !Swaps(w.objs[t], build)) ==> r == w)
  }

  /** Mesh `p` is the data of no target rebuilt in the pass other than `t`. */
  ghost predicate OnlyUser(w: World, p: MeshId, t: ObjId, targets: seq<ObjId>, build: Builder)
    requires forall i :: 0 <= i < |targets| ==> targets[i] in w.objs
  {
    forall i :: 0 <= i < |targets| && targets[i] != t && Swaps(w.objs[targets[i]], build) ==>
      w.objs[targets[i]].data != MeshRef(p)
  }

  /** What a pass does to the previous meshes of the rebuilt targets: one
      held by no other rebuilt target is released exactly when its last user
      left and otherwise loses one user, and with `CopyMaterials` the
      target's new mesh carries its material list. A previous mesh shared by
      several rebuilt targets loses one user per target instead, which the
      store's counts need not reflect. */
  ghost predicate PassReleased(w: World, r: World, targets: seq<ObjId>, build: Builder, policy: SwapPolicy)
    requires forall i :: 0 <= i < |targets| ==> targets[i] in w.objs
    requires r.objs.Keys == w.objs.Keys
  {
    forall t :: GivesUpAlone(w, t, targets, build) ==> SwappedOut(w, r, t, policy)
  }

  /** `t` is rebuilt in the pass and gives up a live mesh that no other
      rebuilt target holds. */
  ghost predicate GivesUpAlone(w: World, t: ObjId, targets: seq<ObjId>, build: Builder)
    requires forall i :: 0 <= i < |targets| ==> targets[i] in w.objs
  {
    && t in targets && Swaps(w.objs[t], build) && Previous(w.store, w.objs[t].data).Some?
    && OnlyUser(w, w.objs[t].data.mesh, t, targets, build)
  }

  /** Target `t`'s previous mesh followed the swap's release rule between
      `w` and `r`, and with `CopyMaterials` the mesh `t` now holds carries
      its material list. */
  ghost predicate SwappedOut(w: World, r: World, t: ObjId, policy: SwapPolicy)
    requires t in w.objs && t in r.objs
    requires Previous(w.store, w.objs[t].data).Some?
  {
    && ReleasedOnce(w.store, r.store, w.objs[t].data.mesh)
    && (policy.CopyMaterials? ==>
          && r.objs[t].data.MeshRef? && r.objs[t].data.mesh in r.store.meshes
          && r.store.meshes[r.objs[t].data.mesh].materials == w.store.meshes[w.objs[t].data.mesh].materials)
  }

  /** What a pass leaves for the meshes it builds: a rebuilt target whose
      previous mesh, if it has one, no other rebuilt target holds ends the
      pass holding exactly the record its own swap made. */
  ghost predicate PassContents(w: World, r: World, targets: seq<ObjId>, build: Builder, policy: SwapPolicy)
    requires forall i :: 0 <= i < |targets| ==> targets[i] in w.objs
    requires r.objs.Keys == w.objs.Keys
  {
    forall t :: BuildsAlone(w, t, targets, build) ==> HoldsRebuilt(w, r, t, build, policy)
  }

  /** `t` is rebuilt in the pass, and no other rebuilt target holds its
      previous mesh. */
  ghost predicate BuildsAlone(w: World, t: ObjId, targets: seq<ObjId>, build: Builder)
    requires forall i :: 0 <= i < |targets| ==> targets[i] in w.objs
  {
    && t in targets && Swaps(w.objs[t], build)
    && (Previous(w.store, w.objs[t].data).Some? ==> OnlyUser(w, w.objs[t].data.mesh, t, targets, build))
  }

  /** In `r`, target `t` holds a mesh whose record is the one `t`'s swap in
      `w` makes. */
  ghost predicate HoldsRebuilt(w: World, r: World, t: ObjId, build: Builder, policy: SwapPolicy)
    requires t in w.objs && t in r.objs && Swaps(w.objs[t], build)
  {
    && r.objs[t].data.MeshRef? && r.objs[t].data.mesh in r.store.meshes
    && r.store.meshes[r.objs[t].data.mesh] == Rebuilt(w, t, build, policy)
  }

  /** No target swapped in the pass was using mesh `m`. */
  ghost predicate NotReplaced(w: World, m: MeshId, targets: seq<ObjId>, build: Builder)
    requires forall i :: 0 <= i < |targets| ==> targets[i] in w.objs
  {
    forall i :: 0 <= i < |targets| && Swaps(w.objs[targets[i]], build) ==> w.objs[targets[i]].data != MeshRef(m)
  }

  /** What one iteration of the target loop does, as `ProcessTarget`
      promises it. */
  ghost predicate StepEffect(w: World, w1: World, t: ObjId, build: Builder, policy: SwapPolicy)
    requires WellFormed(w) && t in w.objs
  {
    && WellFormed(w1) && w1.order == w.order && w1.objs.Keys == w.objs.Keys
    && (forall id :: id in w.objs && id != t ==> w1.objs[id] == w.objs[id])
    && (!Swaps(w.objs[t], build) ==> w1 == w)
    && (Swaps(w.objs[t], build) ==>
          && w1.objs[t] == w.objs[t].(data := MeshRef(w.store.next))
          && w1.store.next == w.store.next + 1
          && w.store.next in w1.store.meshes
          && w1.store.meshes[w.store.next] == Rebuilt(w, t, build, policy))
    && (Swaps(w.objs[t], build) && Previous(w.store, w.objs[t].data).Some? ==>
          && ReleasedOnce(w.store, w1.store, w.objs[t].data.mesh)
          && (policy.CopyMaterials? ==> w1.store.meshes[w.store.next].materials == w.store.meshes[w.objs[t].data.mesh].materials))
    && (forall m :: m in w.store.meshes && !(Swaps(w.objs[t], build) && w.objs[t].data == MeshRef(m)) ==>
          m in w1.store.meshes && w1.store.meshes[m] == w.store.meshes[m])
    && (forall m :: m in w1.store.meshes ==> m in w.store.meshes || m == w.store.next)
    && w1.store.next >= w.store.next
  }

  /** The target loop of the update pass. */
  function ProcessTargets(w: World, targets: seq<ObjId>, build: Builder, policy: SwapPolicy): (r: World)
    requires WellFormed(w)
    requires forall i :: 0 <= i < |targets| ==> targets[i] in w.objs
    requires Distinct(targets)
    ensures PassEffect(w, r, targets, build, policy)
    decreases |targets|
  {
    if |targets| == 0 then w
    else
      var t := targets[0];
      var rest := targets[1..];
      var w1 := ProcessTarget(w, t, build, policy);
      assert t !in rest by {
        forall i | 0 <= i < |rest|
          ensures rest[i] != t
        {
          assert rest[i] == targets[i + 1];
        }
      }
      assert Distinct(rest);
      TargetStep(w, t, build, policy);
      var r := ProcessTargets(w1, rest, build, policy);
      assert targets == [t] + rest;
      Step(w, w1, r, t, rest, build, policy);
      r
  }

  /** `ProcessTarget` has the effect the inductive step relies on. */
  lemma TargetStep(w: World, t: ObjId, build: Builder, policy: SwapPolicy)
    requires WellFormed(w) && t in w.objs
    ensures StepEffect(w, ProcessTarget(w, t, build, policy), t, build, policy)
  {
  }

  /** The inductive step of `ProcessTargets`: one target's step followed by
      a pass over the rest is a pass over all of them. */
  lemma Step(w: World, w1: World, r: World, t: ObjId, rest: seq<ObjId>, build: Builder, policy: SwapPolicy)
    requires WellFormed(w) && t in w.objs && t !in rest
    requires forall i :: 0 <= i < |rest| ==> rest[i] in w.objs
    requires StepEffect(w, w1, t, build, policy)
    requires PassEffect(w1, r, rest, build, policy)
    ensures PassEffect(w, r, [t] + rest, build, policy)
  {
    StepFrame(w, w1, r, t, rest, build, policy);
    StepBuilt(w, w1, r, t, rest, build, policy);
    StepStore(w, w1, r, t, rest, build, policy);
    StepCreated(w, w1, r, t, rest, build, policy);
    StepReleased(w, w1, r, t, rest, build, policy);
    StepContents(w, w1, r, t, rest, build, policy);
  }

  /** The inductive step of `ProcessTargets` for the built meshes: the mesh
      created for `t` is left alone by the rest of the pass, and a later
      target's swap sees the same previous mesh it would have seen first. */
  lemma StepContents(w: World, w1: World, r: World, t: ObjId, rest: seq<ObjId>, build: Builder, policy: SwapPolicy)
    requires WellFormed(w) && t in w.objs && t !in rest
    requires forall i :: 0 <= i < |rest| ==> rest[i] in w.objs
    requires StepEffect(w, w1, t, build, policy)
    requires PassFrame(w1, r, rest, build) && PassStore(w1, r, rest, build) && PassContents(w1, r, rest, build, policy)
    ensures PassContents(w, r, [t] + rest, build, policy)
  {
    var targets := [t] + rest;
    forall t' | BuildsAlone(w, t', targets, build)
      ensures HoldsRebuilt(w, r, t', build, policy)
    {
      if t' == t {
        ContentsHead(w, w1, r, t, rest, build, policy);
      } else {
        ContentsTail(w, w1, r, t, t', rest, build, policy);
      }
    }
  }

  /** `StepContents` for the target processed first. */
  lemma ContentsHead(w: World, w1: World, r: World, t: ObjId, rest: seq<ObjId>, build: Builder, policy: SwapPolicy)
    requires WellFormed(w) && t in w.objs && t !in rest
    requires forall i :: 0 <= i < |rest| ==> rest[i] in w.objs
    requires StepEffect(w, w1, t, build, policy)
    requires PassFrame(w1, r, rest, build) && PassStore(w1, r, rest, build)
    requires Swaps(w.objs[t], build)
    ensures HoldsRebuilt(w, r, t, build, policy)
  {
    var n := w.store.next;
    assert NotReplaced(w1, n, rest, build) by {
      forall i | 0 <= i < |rest| && Swaps(w1.objs[rest[i]], build)
        ensures w1.objs[rest[i]].data != MeshRef(n)
      {
        assert w1.objs[rest[i]] == w.objs[rest[i]];
      }
    }
    assert r.objs[t] == w1.objs[t];
  }

  /** `StepContents` for a target processed after the first. */
  lemma ContentsTail(w: World, w1: World, r: World, t: ObjId, t': ObjId, rest: seq<ObjId>, build: Builder, policy: SwapPolicy)
    requires WellFormed(w) && t in w.objs && t !in rest
    requires forall i :: 0 <= i < |rest| ==> rest[i] in w.objs
    requires StepEffect(w, w1, t, build, policy)
    requires r.objs.Keys == w1.objs.Keys && PassContents(w1, r, rest, build, policy)
    requires t' != t && BuildsAlone(w, t', [t] + rest, build)
    ensures HoldsRebuilt(w, r, t', build, policy)
  {
    var targets := [t] + rest;
    var d := w.objs[t'].data;
    assert forall i :: 0 <= i < |rest| ==> targets[i + 1] == rest[i];
    assert t' in rest;
    assert w1.objs[t'] == w.objs[t'];
    match Previous(w.store, d) {
      case None =>
        assert d.MeshRef? ==> d.mesh < w.store.next;
        assert Previous(w1.store, d).None?;
      case Some(p) =>
        assert !(Swaps(w.objs[t], build) && w.objs[t].data == MeshRef(p)) by {
          assert targets[0] == t;
        }
        assert p in w1.store.meshes && w1.store.meshes[p] == w.store.meshes[p];
        assert OnlyUser(w1, p, t', rest, build) by {
          forall i | 0 <= i < |rest| && rest[i] != t' && Swaps(w1.objs[rest[i]], build)
            ensures w1.objs[rest[i]].data != MeshRef(p)
          {
            assert w1.objs[rest[i]] == w.objs[rest[i]];
          }
        }
    }
    assert Rebuilt(w1, t', build, policy) == Rebuilt(w, t', build, policy);
    assert BuildsAlone(w1, t', rest, build);
    assert HoldsRebuilt(w1, r, t', build, policy);
  }

  /** The inductive step of `ProcessTargets` for the objects not rebuilt. */
  lemma StepFrame(w: World, w1: World, r: World, t: ObjId, rest: seq<ObjId>, build: Builder, policy: SwapPolicy)
    requires WellFormed(w) && t in w.objs && t !in rest
    requires forall i :: 0 <= i < |rest| ==> rest[i] in w.objs
    requires StepEffect(w, w1, t, build, policy)
    requires PassFrame(w1, r, rest, build)
    ensures PassFrame(w, r, [t] + rest, build)
  {
    var targets := [t] + rest;
    assert forall x :: x in targets <==> x == t || x in rest;
    if Swaps(w.objs[t], build) {
      assert w1.objs[t] != w.objs[t];
    }
  }

  /** The inductive step of `ProcessTargets` for the rebuilt targets: the
      mesh created for `t` is older than every mesh the rest create, so it
      survives and no later target shares it. */
  lemma StepBuilt(w: World, w1: World, r: World, t: ObjId, rest: seq<ObjId>, build: Builder, policy: SwapPolicy)
    requires WellFormed(w) && t in w.objs && t !in rest
    requires forall i :: 0 <= i < |rest| ==> rest[i] in w.objs
    requires StepEffect(w, w1, t, build, policy)
    requires PassFrame(w1, r, rest, build) && PassBuilt(w1, r, rest, build) && PassStore(w1, r, rest, build)
    ensures PassBuilt(w, r, [t] + rest, build)
  {
    var targets := [t] + rest;
    assert forall x :: x in targets <==> x == t || x in rest;
    if Swaps(w.objs[t], build) {
      assert NotReplaced(w1, w.store.next, rest, build) by {
        forall i | 0 <= i < |rest| && Swaps(w1.objs[rest[i]], build)
          ensures w1.objs[rest[i]].data != MeshRef(w.store.next)
        {
          assert w1.objs[rest[i]] == w.objs[rest[i]];
        }
      }
      assert r.objs[t] == w1.objs[t];
    }
  }

  /** The inductive step of `ProcessTargets` for what the pass creates: a
      mesh newer than the pass's start is either the one created for `t` or
      one created by the rest of the pass. */
  lemma StepCreated(w: World, w1: World, r: World, t: ObjId, rest: seq<ObjId>, build: Builder, policy: SwapPolicy)
    requires WellFormed(w) && t in w.objs && t !in rest
    requires forall i :: 0 <= i < |rest| ==> rest[i] in w.objs
    requires StepEffect(w, w1, t, build, policy)
    requires PassFrame(w1, r, rest, build) && PassStore(w1, r, rest, build) && PassCreated(w1, r, rest, build)
    ensures PassCreated(w, r, [t] + rest, build)
  {
    var targets := [t] + rest;
    assert forall x :: x in targets <==> x == t || x in rest;
    forall m | m in r.store.meshes && m >= w.store.next
      ensures exists t' :: t' in targets && Swaps(w.objs[t'], build) && r.objs[t'].data == MeshRef(m)
    {
      if m >= w1.store.next {
        var t' :| t' in rest && Swaps(w1.objs[t'], build) && r.objs[t'].data == MeshRef(m);
        assert w1.objs[t'] == w.objs[t'];
        assert t' in targets;
      } else {
        assert Swaps(w.objs[t], build);
        assert r.objs[t] == w1.objs[t];
        assert t in targets;
      }
    }
    if forall t' :: t' in targets ==> !Swaps(w.objs[t'], build) {
      assert w1 == w;
    }
  }

  /** The inductive step of `ProcessTargets` for the previous meshes: the
      one `t` gives up is not the data of any later rebuilt target, so the
      rest of the pass leaves it as `t`'s swap left it; a later target's
      previous mesh is not `t`'s, so `t`'s swap left it alone. */
  lemma StepReleased(w: World, w1: World, r: World, t: ObjId, rest: seq<ObjId>, build: Builder, policy: SwapPolicy)
    requires WellFormed(w) && t in w.objs && t !in rest
    requires forall i :: 0 <= i < |rest| ==> rest[i] in w.objs
    requires StepEffect(w, w1, t, build, policy)
    requires PassFrame(w1, r, rest, build) && PassStore(w1, r, rest, build) && PassReleased(w1, r, rest, build, policy)
    ensures PassReleased(w, r, [t] + rest, build, policy)
  {
    var targets := [t] + rest;
    forall t' | GivesUpAlone(w, t', targets, build)
      ensures SwappedOut(w, r, t', policy)
    {
      if t' == t {
        ReleasedHead(w, w1, r, t, rest, build, policy);
      } else {
        ReleasedTail(w, w1, r, t, t', rest, build, policy);
      }
    }
  }

  /** `StepReleased` for the target processed first. */
  lemma ReleasedHead(w: World, w1: World, r: World, t: ObjId, rest: seq<ObjId>, build: Builder, policy: SwapPolicy)
    requires WellFormed(w) && t in w.objs && t !in rest
    requires forall i :: 0 <= i < |rest| ==> rest[i] in w.objs
    requires StepEffect(w, w1, t, build, policy)
    requires PassFrame(w1, r, rest, build) && PassStore(w1, r, rest, build)
    requires GivesUpAlone(w, t, [t] + rest, build)
    ensures SwappedOut(w, r, t, policy)
  {
    var targets := [t] + rest;
    var p := w.objs[t].data.mesh;
    var n := w.store.next;
    assert forall i :: 0 <= i < |rest| ==> targets[i + 1] == rest[i];
    assert NotReplaced(w1, p, rest, build) by {
      forall i | 0 <= i < |rest| && Swaps(w1.objs[rest[i]], build)
        ensures w1.objs[rest[i]].data != MeshRef(p)
      {
        assert w1.objs[rest[i]] == w.objs[rest[i]];
      }
    }
    assert NotReplaced(w1, n, rest, build) by {
      forall i | 0 <= i < |rest| && Swaps(w1.objs[rest[i]], build)
        ensures w1.objs[rest[i]].data != MeshRef(n)
      {
        assert w1.objs[rest[i]] == w.objs[rest[i]];
      }
    }
    assert r.objs[t] == w1.objs[t];
    if p !in w1.store.meshes {
      assert p < w1.store.next;
    }
  }

  /** `StepReleased` for a target processed after the first. */
  lemma ReleasedTail(w: World, w1: World, r: World, t: ObjId, t': ObjId, rest: seq<ObjId>, build: Builder, policy: SwapPolicy)
    requires WellFormed(w) && t in w.objs && t !in rest
    requires forall i :: 0 <= i < |rest| ==> rest[i] in w.objs
    requires StepEffect(w, w1, t, build, policy)
    requires r.objs.Keys == w1.objs.Keys && PassReleased(w1, r, rest, build, policy)
    requires t' != t && GivesUpAlone(w, t', [t] + rest, build)
    ensures SwappedOut(w, r, t', policy)
  {
    var targets := [t] + rest;
    var p := w.objs[t'].data.mesh;
    assert forall i :: 0 <= i < |rest| ==> targets[i + 1] == rest[i];
    assert t' in rest;
    assert w1.objs[t'] == w.objs[t'];
    assert !(Swaps(w.objs[t], build) && w.objs[t].data == MeshRef(p)) by {
      assert targets[0] == t;
    }
    assert p in w1.store.meshes && w1.store.meshes[p] == w.store.meshes[p];
    assert OnlyUser(w1, p, t', rest, build) by {
      forall i | 0 <= i < |rest| && rest[i] != t' && Swaps(w1.objs[rest[i]], build)
        ensures w1.objs[rest[i]].data != MeshRef(p)
      {
        assert w1.objs[rest[i]] == w.objs[rest[i]];
      }
    }
    assert GivesUpAlone(w1, t', rest, build);
    assert SwappedOut(w1, r, t', policy);
  }

  /** The inductive step of `ProcessTargets` for the mesh store. */
  lemma StepStore(w: World, w1: World, r: World, t: ObjId, rest: seq<ObjId>, build: Builder, policy: SwapPolicy)
    requires WellFormed(w) && t in w.objs && t !in rest
    requires forall i :: 0 <= i < |rest| ==> rest[i] in w.objs
    requires StepEffect(w, w1, t, build, policy)
    requires PassStore(w1, r, rest, build)
    ensures PassStore(w, r, [t] + rest, build)
  {
    var targets := [t] + rest;
    assert forall i :: 1 <= i < |targets| ==> targets[i] == rest[i - 1];
    forall m | m in w.store.meshes && NotReplaced(w, m, targets, build)
      ensures m in r.store.meshes && r.store.meshes[m] == w.store.meshes[m]
    {
      assert !(Swaps(w.objs[t], build) && w.objs[t].data == MeshRef(m)) by {
        assert targets[0] == t;
      }
      assert NotReplaced(w1, m, rest, build) by {
        forall i | 0 <= i < |rest| && Swaps(w1.objs[rest[i]], build)
          ensures w1.objs[rest[i]].data != MeshRef(m)
        {
          assert w1.objs[rest[i]] == w.objs[rest[i]];
          assert targets[i + 1] == rest[i];
        }
      }
    }
  }

  /** `update_now_by_name` after the source lookup: the pass over the
      source's linked meshes, or forgetting the name when it is gone. */
  datatype Pass = Pass(rt: Runtime, world: World)

  /** `update_now_by_name(src_name, include_disabled=...)`. */
  function UpdateNowByName(rt: Runtime, w: World, name: string, includeDisabled: bool, build: Builder): (p: Pass)
    requires WellFormed(w)
    ensures Lookup(w.order, w.objs, name).None? ==> p.world == w && p.rt == Forget(rt, name)
    ensures Lookup(w.order, w.objs, name).Some? ==>
              && p.rt == rt
              && PassEffect(w, p.world, LinkedMeshes(w, Lookup(w.order, w.objs, name), includeDisabled), build, CopyMaterials)
    ensures Lookup(w.order, w.objs, name).Some? && LinkedMeshes(w, Lookup(w.order, w.objs, name), includeDisabled) == [] ==>
              p == Pass(rt, w)
  {
    match Lookup(w.order, w.objs, name)
    case None => Pass(Forget(rt, name), w)
    case Some(src) =>
      var targets := LinkedMeshes(w, Some(src), includeDisabled);
      SubsequenceMembers(targets, w.order);
      SubsequenceDistinct(targets, w.order);
      Pass(rt, ProcessTargets(w, targets, build, CopyMaterials))
  }

  /** End to end: a pass by name changes an object only if it is a linked
      mesh of the named source that has a source and builds, and every such
      object ends with a new mesh of its own. */
  lemma UpdateTouchesExactlyLinkedTargets(rt: Runtime, w: World, name: string, includeDisabled: bool, build: Builder)
    requires WellFormed(w)
    requires Lookup(w.order, w.objs, name).Some?
    ensures var src := Lookup(w.order, w.objs, name).value;
            var p := UpdateNowByName(rt, w, name, includeDisabled, build);
            forall id :: id in w.order ==>
              if IsLinkedMesh(w.objs[id], src, name, includeDisabled) && Swaps(w.objs[id], build)
              then p.world.objs[id].data.MeshRef? && p.world.objs[id].data.mesh >= w.store.next
                   && p.world.objs[id].data.mesh in p.world.store.meshes
              else p.world.objs[id] == w.objs[id]
  {
    var src := Lookup(w.order, w.objs, name).value;
    assert w.objs[src].name == name;
  }

  /** Over a whole pass by name, a rebuilt target whose previous mesh it
      alone held, and which releases that mesh, hands its non-empty name on
      to the new mesh, whose materials are the old list and whose user count
      is the built mesh's plus one. */
  lemma UpdateKeepsReleasedName(rt: Runtime, w: World, name: string, includeDisabled: bool, build: Builder, t: ObjId)
    requires WellFormed(w)
    requires Lookup(w.order, w.objs, name).Some?
    requires BuildsAlone(w, t, LinkedMeshes(w, Lookup(w.order, w.objs, name), includeDisabled), build)
    requires Previous(w.store, w.objs[t].data).Some?
    ensures var p := w.store.meshes[w.objs[t].data.mesh];
            var r := UpdateNowByName(rt, w, name, includeDisabled, build).world;
            && r.objs[t].data.MeshRef? && r.objs[t].data.mesh in r.store.meshes
            && r.store.meshes[r.objs[t].data.mesh].users == build(w.objs[t]).mesh.users + 1
            && r.store.meshes[r.objs[t].data.mesh].materials == p.materials
            && r.store.meshes[r.objs[t].data.mesh].name == (if p.users <= 1 && p.name != "" then p.name else build(w.objs[t]).mesh.name)
  {
    var targets := LinkedMeshes(w, Lookup(w.order, w.objs, name), includeDisabled);
    var r := UpdateNowByName(rt, w, name, includeDisabled, build).world;
    assert PassEffect(w, r, targets, build, CopyMaterials);
    CopiedRecord(w, r, targets, build, t);
  }

  /** What `PassContents` says of one target under the current swap. */
  lemma CopiedRecord(w: World, r: World, targets: seq<ObjId>, build: Builder, t: ObjId)
    requires forall i :: 0 <= i < |targets| ==> targets[i] in w.objs
    requires r.objs.Keys == w.objs.Keys
    requires PassContents(w, r, targets, build, CopyMaterials)
    requires BuildsAlone(w, t, targets, build) && Previous(w.store, w.objs[t].data).Some?
    ensures var p := w.store.meshes[w.objs[t].data.mesh];
            && r.objs[t].data.MeshRef? && r.objs[t].data.mesh in r.store.meshes
            && r.store.meshes[r.objs[t].data.mesh].users == build(w.objs[t]).mesh.users + 1
            && r.store.meshes[r.objs[t].data.mesh].materials == p.materials
            && r.store.meshes[r.objs[t].data.mesh].name == (if p.users <= 1 && p.name != "" then p.name else build(w.objs[t]).mesh.name)
  {
    assert HoldsRebuilt(w, r, t, build, CopyMaterials);
  }

  /** A pass by name does not consult the fingerprint cache or the recorded
      modes: it rebuilds whatever the cache holds, unchanged sources
      included. Only the lookup and the links decide what is built. */
  lemma UpdateIgnoresCache(rt1: Runtime, rt2: Runtime, w: World, name: string, includeDisabled: bool, build: Builder)
    requires WellFormed(w)
    ensures UpdateNowByName(rt1, w, name, includeDisabled, build).world == UpdateNowByName(rt2, w, name, includeDisabled, build).world
    ensures Lookup(w.order, w.objs, name).Some? ==> UpdateNowByName(rt1, w, name, includeDisabled, build).rt == rt1
  {
  }
}
